=== FILE: README.md ===
# LSP-jdtls decision procedures in Dafny

LSP-jdtls is the Sublime Text client for the Eclipse JDT language server.
Apart from calling the editor and the language session, the plugin makes a
number of small decisions. This project models them as pure functions over
sequences, records and maps, and proves what they guarantee.

The plugin decides:

- how test items are flattened, filtered and chosen, and how the debugger
  launch of a test is put together. This covers the TestNG runner
  arguments, the `-port` substitution and the class-path merge;
- where a project setting is written in the project data;
- how the server's launch command is edited before start. This covers the
  Lombok agent, the bundle list, the java executable and the platform name;
- how its two quick-panel modules behave as state machines, and the
  class-level pending-handler registers through which they reach the
  command palette (one per module);
- how the commands and notifications the server sends to the client are
  dispatched, and what is answered.

The editor, the session, dialog answers, settings, the environment and the
platform are all inputs of the model. The two class-level registers, the window
command's in the quick-input module and the list handler's in the
quick-select module, each become a separate piece of explicit state
(`PendingSlot.Slot`). Python exceptions become
`Result.Failure`. Absent optional dictionary keys become `Option.None`. A test item's `range` is the exception: `None` there stands for a `null` range.

Layout. There is one module per source file:

- `utils.dfy` (`Utils`)
- `test_extension_commands.dfy` (`TestCommands`)
- `quick_input_panel.dfy` (`QuickInputPanel`)
- `quick_select_panel.dfy` (`QuickSelectPanel`)
- `jdtls.dfy` (`Jdtls`)
- `workspace_execute_command_handler.dfy` (`WorkspaceCommands`)
- `workspace_execute_client_command_handler.dfy` (`ClientCommands`)
- `test_extension_client_command_handler.dfy` (`TestClientCommands`)
- `protocol_extensions_handler.dfy` (`ProtocolExtensions`)

These share some modules:

- `Wrappers`: `Option` and `Result`;
- `Seqs`: Python list operations such as `index`, `insert`, `remove`, and
  the deduplicating append;
- `Strings`: `split`, `join` and `str(int)`;
- `Json`: JSON values with Python's truth test;
- `TestProtocol`: the test item records;
- `PendingSlot`: a pending-handler register, used once per panel module.

## Model

| member | source | states |
|---|---|---|
| Utils.Flatten | modules/utils.py:45-51 | the depth-first, pre-order listing of a test-item forest. Its meaning is stated by `Utils.FlattenPreOrder`, `Utils.FlattenAppend`, `Utils.FlattenLength`, `Utils.FlattenEmpty`, `Utils.FlattenLeaf` and `Utils.FlattenMembers` |
| Utils.FlattenPreOrder | modules/utils.py:45-51 | every item is followed immediately by the flattening of its own children, after all that its earlier siblings contribute and before all that its later siblings contribute |
| Utils.FlattenAppend | modules/utils.py:46-50 | flattening two forests one after the other gives the two flattenings one after the other, so sibling order is kept |
| Utils.FlattenLength | modules/utils.py:46-50 | the flattening has exactly as many entries as the forest has nodes |
| Utils.FlattenEmpty | modules/utils.py:46-51 | the empty list flattens to the empty list |
| Utils.FlattenLeaf | modules/utils.py:47-51 | an item without children contributes exactly itself |
| Utils.FlattenMembers | modules/utils.py:45-51 | an item is in the flattening if and only if it occurs somewhere in the forest |
| Utils.SplitLines | modules/utils.py:55 | `splitlines(True)` gives lines that join back into the input, and no line is empty; `Utils.SplitLinesEndings` and `Utils.SplitLinesShape` pin where the breaks fall |
| Utils.SplitLinesEndings | modules/utils.py:55 | every line `splitlines(True)` gives, except the last, ends in one of Python's line-break characters |
| Utils.SplitLinesShape | modules/utils.py:55 | no line holds a line break before its end, and a "\r\n" ending is never split between two lines; with the two other contracts this fixes the split to `splitlines(True)` |
| Utils.FirstLineLength | modules/utils.py:55 | the first line ends at the first line break, and "\r\n" counts as one line ending |
| Utils.FilterLines | modules/utils.py:54-55 | keeps the lines, endings included, that contain none of the patterns. Its meaning is stated by `Utils.FilterLinesSelects`, `Utils.FilterLinesNoPatterns`, `Utils.FilterLinesClean`, `Utils.FilterLinesRemovesPatterns` and `Utils.FilterLinesIdempotent` |
| Utils.FilterLinesSelects | modules/utils.py:54-55 | the result is the concatenation of a subsequence of the input's lines. That subsequence holds the lines that contain none of the patterns, each as many times as it occurs in the input, and no other line; line endings are kept |
| Utils.FilterLinesNoPatterns | modules/utils.py:55 | with no patterns the input comes back unchanged |
| Utils.FilterLinesClean | modules/utils.py:55 | an input that contains none of the patterns comes back unchanged |
| Utils.FilterLinesRemovesPatterns | modules/utils.py:54-55 | a non-empty pattern with no line break occurs nowhere in the result |
| Utils.FilterLinesIdempotent | modules/utils.py:55 | when no pattern contains a line break, filtering twice equals filtering once |
| Utils.FilterLinesTwiceDiffers | modules/utils.py:55 | with the pattern "\r\n", the kept lines "\r" and "\n" join into one "\r\n" line, so a second pass removes more |
| Utils.SetAtPath | modules/utils.py:18-24 | walks the key path, creating missing objects, and stores the value under the setting. Its meaning is stated by `Utils.SetAtPathFails`, `Utils.SetAtPathStores`, `Utils.SetAtPathPreserves` and `Utils.SetAtPathLevels` |
| Utils.SetAtPathFails | modules/utils.py:18-24 | the key walk fails exactly when a value that is not an object lies on the path |
| Utils.SetAtPathStores | modules/utils.py:18-24 | after the walk, reading the path plus the setting gives the value written |
| Utils.SetAtPathPreserves | modules/utils.py:18-24 | every other key path reads the same before and after, at every level |
| Utils.SetAtPathLevels | modules/utils.py:18-22 | every level on the path ends up as an object. Its keys are the ones it had plus the next key, so a missing level is created holding only that key |
| Utils.SetLspProjectSetting | modules/utils.py:15-24 | project data missing or empty counts as `{}`. The write fails exactly when the path settings/LSP/jdtls/settings is blocked by a non-object. Otherwise the setting under that path reads the value |
| TestCommands.GetTestName | modules/test_extension_commands.py:182-188 | TestNG items and class-level items are named by their full name, all others by their JDT handle. `TestCommands.SelectedTestNames` applies this to the items the run commands pick |
| TestCommands.SelectedTestNames | modules/test_extension_commands.py:182-188 | the class run-test-class picks is requested by its full name; a method picked at the cursor by its JDT handle, unless it is a TestNG test |
| TestCommands.TestNgArguments | modules/test_extension_commands.py:268-280 | the TestNG runner arguments: the port as a decimal string and "testng", then one entry per qualifying method-level item; `TestCommands.TestNgArgumentsRefs` says which entries they are |
| TestCommands.TestNgArgumentsRefs | modules/test_extension_commands.py:268-280 | the arguments start with the port and "testng". Then, for each method-level item of the flattened tree in order whose id splits on '@' into exactly two parts, comes the part after the '@' |
| TestCommands.TestNgArgs | modules/test_extension_commands.py:271-280 | the loop over the flattened tree yields exactly the arguments described by `TestNgArguments` |
| TestCommands.MethodRefs | modules/test_extension_commands.py:273-279 | walking the flattened tree once collects, in order, the part after the '@' of every method-level id that splits into exactly two parts |
| TestCommands.TestNgArgumentsHaveNoAt | modules/test_extension_commands.py:277-279 | no argument after the header contains an '@' |
| TestCommands.TestNgArgumentsPort | modules/test_extension_commands.py:271 | the first argument parses back to the port of the result server |
| TestCommands.TestNgArgumentsNoMethods | modules/test_extension_commands.py:273-280 | a tree without method-level items yields only the header |
| TestCommands.SelectTestClass | modules/test_extension_commands.py:288-298 | gives nothing exactly when no top-level item is class-level; otherwise the first class-level item |
| TestCommands.SelectTestAtCursor | modules/test_extension_commands.py:306-333 | gives nothing for an empty list or a missing cursor. Otherwise it gives nothing exactly when no method-level test with a range starts at or above the cursor line. A chosen test qualifies and has the largest start line, and every qualifying test before it in flattening order starts on a strictly smaller line, so ties go to the earliest |
| TestCommands.SubstitutePort | modules/test_extension_commands.py:237-238 | succeeds exactly when "-port" occurs and is not the last element. It then replaces only the element after the first "-port", with the port's decimal string |
| TestCommands.SubstitutePortKeepsFlag | modules/test_extension_commands.py:237-238 | after the substitution the first "-port" is still at the same index |
| TestCommands.SubstitutePortTwice | modules/test_extension_commands.py:237-238 | substituting port p and then q is the same as substituting q alone |
| TestCommands.MergeClasspaths | modules/test_extension_commands.py:201-204 | the existing class path is kept in place as a prefix; every incoming entry ends up present; each appended entry is new, comes from the incoming list and is appended once, in the order of its first occurrence there; the other launch arguments are unchanged |
| TestCommands.MergeClasspathsTwice | modules/test_extension_commands.py:201-204 | merging the same class path a second time changes nothing |
| TestCommands.Launch | modules/test_extension_commands.py:213-258 | JUnit and JUnit 5 items run the resolved main class with the port substituted, and fail when the substitution fails. TestNG items run the TestNG launcher with the runner jar appended to the class path and the TestNG arguments. Any other kind fails with "TestKind None not supported". Name, project, working directory, module path and VM arguments are copied in every case |
| PendingSlot.Enqueue | modules/quick_input_panel.py:233-237 | fails with "There is already an input handler pending." exactly when a handler waits; otherwise the slot holds the new handler |
| PendingSlot.ConsumePending | modules/quick_input_panel.py:220-227 | returns what was waiting and leaves the slot empty |
| PendingSlot.Show | modules/quick_input_panel.py:239-242 | fails exactly when nothing waits, and leaves the slot unchanged |
| PendingSlot.Input | modules/quick_input_panel.py:254-260 | returns the waiting handler and empties the slot; fails with "No pending list input handler." when nothing waits |
| PendingSlot.EnqueueInputRoundTrip | modules/quick_input_panel.py:233-260 | what one dialog enqueues is exactly what the palette receives, and the slot is free afterwards |
| PendingSlot.EnqueueTwiceFails | modules/quick_input_panel.py:233-237 | a second enqueue fails until the first handler has been taken, and succeeds afterwards |
| QuickInputPanel.ItemRows | modules/quick_input_panel.py:160-170 | one row per item not yet chosen, in item order. Its value is the item's index and its text, details, annotation and kind are the item's |
| QuickInputPanel.ItemRowsComplete | modules/quick_input_panel.py:160-170 | every item not yet chosen has a row |
| QuickInputPanel.ListItems | modules/quick_input_panel.py:149-177 | a multi-select list starts with the "Confirm" row of value -1. The preselect index is 0 once anything is chosen and the configured one before that, shifted by one in multi-select |
| QuickInputPanel.PreselectDenotesConfigured | modules/quick_input_panel.py:171-177 | before any choice, the preselected row is the row of the configured item |
| QuickInputPanel.Confirm | modules/quick_input_panel.py:187-202 | value -1 finishes; any other value is pushed on the stack; single-select finishes on any row. A finished dialog resolves with the chosen items in the order chosen, and an unfinished one does not resolve |
| QuickInputPanel.Cancel | modules/quick_input_panel.py:179-185 | pops the most recent choice without resolving, or, when nothing is chosen, resolves with nothing |
| QuickInputPanel.NextInput | modules/quick_input_panel.py:204-207 | asks for no further input exactly when the dialog is finished |
| QuickInputPanel.SingleSelectResolves | modules/quick_input_panel.py:187-202 | a single-select dialog resolves with exactly the chosen item and ends |
| QuickInputPanel.CancelUndoesChoice | modules/quick_input_panel.py:179-191 | in multi-select, cancelling right after a choice restores the dialog as it was |
| QuickInputPanel.MultiSelectKeepsOrder | modules/quick_input_panel.py:187-202 | choosing rows one after the other and then "Confirm" resolves with those items in the order chosen |
| QuickInputPanel.ConfirmOfferedKeepsDistinct | modules/quick_input_panel.py:160-191 | choosing only rows that are on offer never puts an index on the stack twice |
| QuickInputPanel.ResolveText | modules/quick_input_panel.py:117-121 | the text dialog resolves with the confirmed text, or with nothing when cancelled |
| QuickInputPanel.ValidateText | modules/quick_input_panel.py:123-124 | without a validation callback every text is accepted; with one, its verdict counts |
| QuickInputPanel.PreviewText | modules/quick_input_panel.py:126-127 | without a preview callback the preview is empty. `QuickInputPanel.DefaultCallbacks` and `ClientCommands.InputForwarded` use it |
| QuickInputPanel.DefaultCallbacks | modules/quick_input_panel.py:123-127 | an absent validation callback acts like one accepting every text, and an absent preview callback like one previewing nothing |
| QuickInputPanel.ShowDialog | modules/quick_input_panel.py:71-103 | fails while another handler waits; otherwise the palette receives exactly this dialog's handler |
| QuickSelectPanel.Toggle | modules/quick_select_panel.py:61-62 | flips the item's flag and changes nothing else |
| QuickSelectPanel.ToggleTwice | modules/quick_select_panel.py:61-62 | toggling twice gives back the item |
| QuickSelectPanel.GetKind | modules/quick_select_panel.py:55-59 | the glyph is "●" exactly when the item is selected and "○" exactly when it is not; the kind id is the item's |
| QuickSelectPanel.ToggleChangesGlyph | modules/quick_select_panel.py:55-62 | every toggle changes the glyph and keeps the kind id |
| QuickSelectPanel.CurrentSelection | modules/quick_select_panel.py:95-96 | the selected items in their original order: a subsequence of the items, all selected, holding each selected item as many times as the dialog lists it |
| QuickSelectPanel.CurrentItems | modules/quick_select_panel.py:150-159 | in multi-select "Confirm" comes first and item i is at position i + 1; in single-select item i is at position i |
| QuickSelectPanel.ListItems | modules/quick_select_panel.py:146-167 | the row with value v shows current_items[v], and the preselect index is passed on unshifted |
| QuickSelectPanel.ListItemsAlignment | modules/quick_select_panel.py:150-167 | item i is shown by the row of value i + 1 in multi-select and i in single-select |
| QuickSelectPanel.Confirm | modules/quick_select_panel.py:174-187 | toggles only the item at row v (the "Confirm" row toggles nothing) and makes v the preselect index. It finishes on "Confirm" or in single-select; a finished dialog resolves with the current selection, and any other reopens |
| QuickSelectPanel.NextInput | modules/quick_select_panel.py:189-194 | never asks for further input; `QuickSelectPanel.ReopensInsteadOfChaining` shows how the dialog continues instead |
| QuickSelectPanel.ReopensInsteadOfChaining | modules/quick_select_panel.py:174-194 | after any choice no further input is chained: a choice that leaves the dialog unfinished reopens it, and one that finishes it resolves with the current selection |
| QuickSelectPanel.ChooseTwiceRestores | modules/quick_select_panel.py:174-187 | choosing the same item row twice in multi-select restores every flag |
| QuickSelectPanel.ConfirmRowResolves | modules/quick_select_panel.py:147-152 | "Confirm" changes no flag and resolves with the items selected so far |
| QuickSelectPanel.SingleSelectResolves | modules/quick_select_panel.py:174-185 | a single-select dialog with nothing selected resolves with exactly the chosen item |
| QuickSelectPanel.SingleSelectDropsPreselected | modules/quick_select_panel.py:174-185 | choosing an already selected item in single-select clears its flag, so the dialog resolves without it |
| QuickSelectPanel.Show | modules/quick_select_panel.py:125-135 | fails while a handler waits; otherwise the palette receives this dialog |
| Jdtls.EnableLombok | modules/jdtls.py:115-133 | with Lombok on and the agent argument missing, the argument is inserted right before the first "-jar", and the edit fails without one. With Lombok off and the argument present, its first occurrence is removed. Otherwise the command is unchanged |
| Jdtls.EnableLombokCount | modules/jdtls.py:122-133 | enabled, the argument ends up present exactly once unless it was already there; disabled, one occurrence fewer |
| Jdtls.EnableLombokIdempotent | modules/jdtls.py:122-133 | applying the edit twice with the same setting equals applying it once (see Left out for the disabled case) |
| Jdtls.EnableLombokTwiceRemovesTwice | modules/jdtls.py:129-133 | an argument present twice loses one occurrence per run while Lombok is off |
| Jdtls.EnableThenDisable | modules/jdtls.py:123-133 | enabling and then disabling gives back a command that lacked the argument |
| Jdtls.InsertBundles | modules/jdtls.py:137-152 | missing or empty bundles count as none. They are kept as a prefix; every jar path ends up present; each appended path is new and appended once |
| Jdtls.InsertBundlesStable | modules/jdtls.py:137-152 | appended paths come in the order of their first occurrence among the jar paths, and inserting the same jars again adds nothing |
| Jdtls.JavaHome | modules/jdtls.py:76-81 | the first non-empty of the setting, the deprecated setting and `JAVA_HOME`; nothing when all are missing or empty |
| Jdtls.JavaExecutable | modules/jdtls.py:82-85 | plain "java" without a java home; otherwise a path under the java home |
| Jdtls.PathJoin | modules/jdtls.py:83 | POSIX `os.path.join` of a relative part adds a separator exactly when the first part is not empty and does not already end with one; `Jdtls.JavaExecutableUnderHome` uses it |
| Jdtls.JavaExecutableUnderHome | modules/jdtls.py:82-83 | the executable is `<home>/bin/java`, without a doubled separator when the home ends with "/" |
| Jdtls.JdtlsPlatform | modules/jdtls.py:93-102 | windows, osx and linux become win, mac and linux; any other platform fails with "unknown platform: " and the name |
| Jdtls.JdtlsPlatformInverse | modules/jdtls.py:93-102 | the server's platform name determines the editor's platform |
| Jdtls.WatchParentProcess | modules/jdtls.py:106-108 | "false" exactly on windows, "true" everywhere else |
| Jdtls.AdditionalVariables | modules/jdtls.py:72-113 | fails exactly on an unknown platform. Otherwise the six variables hold the executable, the watch flag, the platform name, the server and data directories and the launcher version |
| Jdtls.WindowsVariables | modules/jdtls.py:93-108 | on windows the parent is not watched and the platform is "win" |
| Jdtls.OnOpenUri | modules/jdtls.py:201-208 | the plugin takes over a URI exactly when it starts with "jdt:" and the session is alive; `Jdtls.OnOpenUriScheme` relates this to the URI's scheme |
| Jdtls.OnOpenUriScheme | modules/jdtls.py:201-208 | a URI is taken over exactly when the session is alive and the part before its first colon is "jdt" |
| Jdtls.OnPreServerCommand | modules/jdtls.py:230-243 | without a session nothing is handled. Otherwise the result is the client-side table's, given the arguments (none when absent), and counts as handled exactly when the table knows the command; a handler that raises makes the hook raise |
| Jdtls.PreServerCommandArguments | modules/jdtls.py:240 | a command without arguments is handled like one with an empty argument list |
| Jdtls.OnWorkspaceConfiguration | modules/jdtls.py:245-258 | the configuration comes back unchanged unless section and scope are both given and the section is mapped. Then, if the session and the view exist, the view's mapped setting is returned (null when unset). A list or object section fails as an unhashable key |
| Jdtls.WorkspaceConfigurationReadsSetting | modules/jdtls.py:245-258 | for a mapped section the server reads back whatever value the view holds under the mapped setting name, whatever the configuration |
| Jdtls.HooksWithoutSession | modules/jdtls.py:201-258 | without a session no URI is taken over, no command is handled, and the configuration comes back unchanged whenever the lookup does not raise |
| WorkspaceCommands.HandleClientCommand | modules/workspace_execute_command_handler.py:13-78 | an unknown command is not handled. Each of the four known ones runs its handler. Null analysis needs exactly one argument and fails when the project data blocks the write; otherwise the new project data holds the mode under the plugin's settings. The edit needs a first argument. The references handler iterates the third argument. The completion acknowledgement takes any arguments. Wrong arguments fail |
| WorkspaceCommands.ReferenceList | modules/workspace_execute_command_handler.py:69 | a list gives its elements and an empty string or object gives none; a non-empty string or object and any other value fail |
| WorkspaceCommands.EmptyReferencesShowEmptyPanel | modules/workspace_execute_command_handler.py:51-78 | an empty list, string or object as the third argument opens an empty reference panel, and the command counts as handled |
| WorkspaceCommands.HandledIffKnown | modules/workspace_execute_command_handler.py:26-29 | a call that does not raise reports the command handled exactly when it is a table key |
| WorkspaceCommands.NullAnalysisMode | modules/workspace_execute_command_handler.py:39 | "automatic" exactly for the automatic status (2), "disabled" for every other one |
| WorkspaceCommands.NullAnalysisProjectData | modules/workspace_execute_command_handler.py:36-40 | the mode is written under the plugin's project settings, with the same failure condition as the key walk |
| WorkspaceCommands.OpenReference | modules/workspace_execute_command_handler.py:54-61 | index -1 opens nothing; any other index opens that reference at its encoded position, transient exactly when asked |
| WorkspaceCommands.ChoiceAndHighlight | modules/workspace_execute_command_handler.py:54-67 | choosing opens the reference for good, and highlighting previews the same reference |
| ClientCommands.Dispatch | modules/workspace_execute_client_command_handler.py:12-34 | a request without "arguments" fails for any command. Otherwise an unknown command gets no handler; reload takes no arguments, choice takes three and input two, and any other number fails |
| ClientCommands.ReloadBundlesResponse | modules/workspace_execute_client_command_handler.py:44-45 | the answer is an empty list; `ClientCommands.ReloadBundlesAnswersMissing` says why |
| ClientCommands.ReloadBundlesAnswersMissing | modules/workspace_execute_client_command_handler.py:44-45 | the answer lists exactly the bundled jars missing from the bundles the server started with, which is none |
| ClientCommands.PreselectIndex | modules/workspace_execute_client_command_handler.py:67-70 | the index of the last item whose "picked" is truthy, or 0 when none is |
| ClientCommands.FindPreselectIndex | modules/workspace_execute_client_command_handler.py:67-70 | the loop computes that index |
| ClientCommands.QsItems | modules/workspace_execute_client_command_handler.py:72-80 | each item keeps its label. Its value is null when absent, and its detail and description become details and annotation, empty when absent |
| ClientCommands.ChoiceDialog | modules/workspace_execute_client_command_handler.py:81-87 | a fresh, unfinished dialog with no choice made that lists exactly the converted items (`ClientCommands.QsItems`), with the computed preselect index, the given placeholder and the multi-select flag |
| ClientCommands.ValueOrLabel | modules/workspace_execute_client_command_handler.py:63-65 | the value when it is truthy, the label otherwise |
| ClientCommands.ChoiceResponse | modules/workspace_execute_client_command_handler.py:58-65 | no selection or an empty one answers null. Multi-select answers the list of the chosen items' values or labels in order, and single-select the first chosen item's |
| ClientCommands.SingleChoiceAnswer | modules/workspace_execute_client_command_handler.py:58-87 | choosing row v of a single-select dialog answers item v's value, or its label when the value is falsy |
| ClientCommands.CancelledChoiceAnswer | modules/workspace_execute_client_command_handler.py:58-60 | cancelling before any choice answers null |
| ClientCommands.MultiChoiceAnswer | modules/workspace_execute_client_command_handler.py:58-87 | choosing rows and then "Confirm" answers their values or labels in the order chosen; "Confirm" alone answers null |
| ClientCommands.InputDialog | modules/workspace_execute_client_command_handler.py:99 | a text dialog with the caption as placeholder, the initial text, and neither a validation nor a preview callback; `ClientCommands.InputForwarded` shows what this means for the answer |
| ClientCommands.InputResponse | modules/workspace_execute_client_command_handler.py:96-99 | the typed text is forwarded as it is; a cancelled dialog answers null |
| ClientCommands.InputForwarded | modules/workspace_execute_client_command_handler.py:90-99 | the input dialog accepts any text and previews nothing, so the server receives whatever is confirmed |
| TestClientCommands.Dispatch | modules/test_extension_client_command_handler.py:14-27 | only the choice question is handled, with exactly three arguments; any other command is only logged |
| TestClientCommands.DispatchAgreesOnChoice | modules/test_extension_client_command_handler.py:17-27 | this handler and the general one treat the choice question alike, and only this one leaves reload and input unhandled |
| TestClientCommands.PanelItems | modules/test_extension_client_command_handler.py:45 | one row per item, with its label and its description, empty when absent |
| TestClientCommands.OnSelect | modules/test_extension_client_command_handler.py:35-43 | -1 answers null. Otherwise the answer is the item's value whenever the key is present, whatever the value is, and its label otherwise, wrapped in a one-element list for multi-select |
| TestClientCommands.PresenceVersusTruthiness | modules/test_extension_client_command_handler.py:39 | the two handlers agree when the value is absent or truthy. For a present but falsy value this one answers the value and the general one the label |
| ProtocolExtensions.DialogFor | modules/protocol_extensions_handler.py:29-50 | no commands (key missing or empty list) give a message box; one an OK/Cancel dialog; two a Yes/No/Cancel dialog with their titles; more a single-select picker over the titles, first row preselected |
| ProtocolExtensions.ChosenCommand | modules/protocol_extensions_handler.py:30-50 | OK runs the single command. Yes runs the first of two and No the second. A picker runs the first chosen item's command. A message box, Cancel or a closed picker run nothing |
| ProtocolExtensions.PickerItems | modules/protocol_extensions_handler.py:47 | one picker row per command, titled with its title and carrying the command |
| ProtocolExtensions.PickerRunsChosen | modules/protocol_extensions_handler.py:46-50 | choosing row i of the picker runs command i |
| ProtocolExtensions.RunsOwnCommand | modules/protocol_extensions_handler.py:29-52 | whatever the answer, the command run is one of the notification's |
| ProtocolExtensions.RunCommand | modules/protocol_extensions_handler.py:21-27 | nothing runs without a command; otherwise its command is executed with its arguments exactly when it has some |
| ProtocolExtensions.ProgressKey | modules/protocol_extensions_handler.py:56 | the report's id when present, "jdtls-status-dummy-key" otherwise |
| ProtocolExtensions.ProgressReport | modules/protocol_extensions_handler.py:55-71 | an unfinished report shows the work done over the total, and a finished one shows the total done and is erased after 1000 ms. A total of zero fails |
| ProtocolExtensions.ProgressCompleteIsFull | modules/protocol_extensions_handler.py:55-71 | a finished report is the unfinished report of all the work plus the erase timer, and it writes under the same key as the unfinished ones |
| ProtocolExtensions.StatusMessage | modules/protocol_extensions_handler.py:74-78 | the message reaches the status bar exactly when it is present and truthy; `ProtocolExtensions.StatusShownUnlessFalsy` spells out the values that are not |
| ProtocolExtensions.StatusShownUnlessFalsy | modules/protocol_extensions_handler.py:74-78 | a present message is shown unless it is null, false, 0, an empty string, an empty list or an empty object; an absent one never is |

## Left out

- The result servers for JUnit and TestNG runs and their stream decoding are not part of this model. Their source is not available. `modules/test_extension_server.py` only holds a socket stub.
- `modules/installer.py` (download, extraction, file permissions) is left out. So are `plugin.py`, an older copy of the plugin class, `boot.py` and the declaration-only files. The jar, server and data paths those produce are parameters.
- Calls into the editor and the language session are left out: message dialogs, overlays, timeouts, promises, `execute_command` and `send_request`. Dialog answers, the existence of the session and the view, the view's settings and the environment are inputs. This covers most of `LspJdtlsTestCommand` (GotoTest, RunTest, GenerateTests and fetching debug arguments), `debug_extension.py`, `jdtls_commands.py` and `test_extension_server_commands.py`.
- `client_command_handler.py` is left out: its handler does nothing.
- `on_pre_start`'s constant initialization options and `on_settings_changed`'s capability registration are left out. Both are fixed data passed to the host.
- The `java/classFileContents` request that `on_open_uri_async` sends is left out. Only its guard is modelled.
- The launcher version comes from a regular expression over a directory listing, so it is a parameter.
- Decoding the choice items from JSON is left out: they arrive typed. A missing `label`, which raises a KeyError in the source, is not modelled.
- `location_to_encoded_filename` is left out: the references reach `OpenReference` already encoded.
- Progress percentages are floating point, so `ProtocolExtensions.ProgressReport` keeps the fraction as two integers. Formatting is left out.
- JSON numbers are integers, so a status of `2.0`, equal to `automatic` in Python, is not modelled.
- The `on_select_confirmed` callbacks of selected items do nothing in every dialog the plugin opens, so they are left out.
- `QuickSelectPanel` cancelling is a no-op in the source, so it has no transition.
- `os.path.join` is modelled with POSIX rules only. Windows drive letters and separators are left out.
- The two class-level pending handlers are explicit state threaded through calls. The source has no locking, and neither does the model.
- Jdtls.EnableLombokIdempotent: in the disabled case it requires the agent argument to occur at most once, because `list.remove` drops one occurrence per run (`Jdtls.EnableLombokTwiceRemovesTwice`). The plugin's own edit never adds a second one (`Jdtls.EnableLombokCount`).
- Utils.FilterLinesIdempotent: requires that no pattern contain a line-break character, because `splitlines` re-joins a kept "\r" line with a following "\n" line (`Utils.FilterLinesTwiceDiffers`).
- Utils.SetLspProjectSetting: the prompt to save a project when the window has none (`modules/utils.py:11-13`) and the deferred `set_project_data` are left out. The model returns the new project data.
- WorkspaceCommands.HandleClientCommand: the handlers' effects (applying the edit, opening the panel, writing the setting) are described by the returned action. The call to `done` is recorded only as when it happens, since the host schedules it.
- WorkspaceCommands.HandleClientCommand: `location_to_encoded_filename` is not part of this model. It is taken to reject a string, which is what iterating a non-empty string or object as the references gives.
- ClientCommands.Dispatch: an "arguments" value that is present but not a list is not modelled; the arguments arrive as a list of JSON values.
- TestCommands.SelectTestAtCursor: a method-level item without a "range" key, which makes the source raise KeyError and stop, is treated like one whose range is null and skipped. The server always sends the key.
- TestCommands.Launch: the refused kind appears in the message under its member name, "None". The source's `str` of the kind depends on the definition of `TestKind`, which is not part of this model.

=== FILE: jdtls.dfy ===
/** The plugin class: how the server's launch command and initialization
    options are edited before start, the variables substituted into the
    command, and the guards of the hooks the editor calls. Settings, the
    environment, the platform name, the session and the view are inputs. */
module Jdtls {

  import opened Wrappers
  import opened Json
  import opened Seqs
  import opened Strings
  import WorkspaceCommands

  // ---------------------------------------------------------------------
  // Lombok

  const JAVAAGENT_PREFIX: string := "-javaagent:"

  /** The argument that loads Lombok as a Java agent. */
  function JavaagentArg(lombokJar: string): (arg: string)
    ensures StartsWith(arg, JAVAAGENT_PREFIX) && arg[|JAVAAGENT_PREFIX|..] == lombokJar
  {
    JAVAAGENT_PREFIX + lombokJar
  }

  /** The Lombok setting, read for its truth value (absent is false). */
  predicate LombokEnabled(setting: Option<Json>) {
    setting.Some? && Truthy(setting.value)
  }

  /** `_enable_lombok`: with Lombok enabled and the agent argument missing,
      the argument goes right before the first "-jar" (and the edit raises
      when there is none); with Lombok disabled and the argument present,
      its first occurrence is removed; otherwise the command stays as it
      is. */
  function EnableLombok(command: seq<string>, setting: Option<Json>, lombokJar: string): (r: Result<seq<string>>)
    ensures var arg := JavaagentArg(lombokJar);
      r.Failure? <==> LombokEnabled(setting) && arg !in command && "-jar" !in command
    ensures var arg := JavaagentArg(lombokJar);
      LombokEnabled(setting) && arg !in command && r.Success? ==>
        exists i :: 0 <= i < |command| && command[i] == "-jar" && "-jar" !in command[..i] &&
          r.value == command[..i] + [arg] + command[i..]
    ensures var arg := JavaagentArg(lombokJar);
      !LombokEnabled(setting) && arg in command ==>
        r.Success? && |r.value| == |command| - 1 &&
        exists i :: 0 <= i < |command| && command[i] == arg && arg !in command[..i] &&
          r.value == command[..i] + command[i + 1..]
    ensures var arg := JavaagentArg(lombokJar);
      (LombokEnabled(setting) <==> arg in command) ==> r == Success(command)
  {
    var arg := JavaagentArg(lombokJar);
    if LombokEnabled(setting) && arg !in command then
      match IndexOf(command, "-jar")
      case Failure(_) => Failure("ValueError: '-jar' is not in list")
      case Success(i) => Success(InsertAt(command, i, arg))
    else if !LombokEnabled(setting) && arg in command then
      Success(RemoveFirst(command, arg))
    else
      Success(command)
  }

  /** Inserting an element adds one occurrence of it. */
  lemma {:induction false} InsertAtCount(s: seq<string>, i: nat, x: string)
    requires i <= |s|
    ensures Count(InsertAt(s, i, x), x) == Count(s, x) + 1
  {
    CountAppend(s[..i] + [x], s[i..], x);
    CountAppend(s[..i], [x], x);
    CountAppend(s[..i], s[i..], x);
    assert s[..i] + s[i..] == s;
    assert [x][1..] == [];
  }

  /** Removing the first occurrence of an element drops one occurrence. */
  lemma {:induction false} RemoveFirstCount(s: seq<string>, x: string)
    requires x in s
    ensures Count(RemoveFirst(s, x), x) == Count(s, x) - 1
  {
    var i := IndexOf(s, x).value;
    assert RemoveFirst(s, x) == s[..i] + s[i + 1..];
    CountWithout(s, i, x);
  }

  /** Enabled, the edit leaves the agent argument in the command; disabled,
      it leaves one occurrence fewer. */
  lemma {:induction false} EnableLombokCount(command: seq<string>, setting: Option<Json>, lombokJar: string)
    requires EnableLombok(command, setting, lombokJar).Success?
    ensures var arg := JavaagentArg(lombokJar);
      var r := EnableLombok(command, setting, lombokJar).value;
      (LombokEnabled(setting) ==> arg in r && Count(r, arg) == if arg in command then Count(command, arg) else 1) &&
      (!LombokEnabled(setting) ==> Count(r, arg) == if arg in command then Count(command, arg) - 1 else 0)
  {
    var arg := JavaagentArg(lombokJar);
    var r := EnableLombok(command, setting, lombokJar).value;
    CountPositive(command, arg);
    if LombokEnabled(setting) && arg !in command {
      var i := IndexOf(command, "-jar").value;
      assert r == InsertAt(command, i, arg);
      InsertAtCount(command, i, arg);
    } else if !LombokEnabled(setting) && arg in command {
      assert r == RemoveFirst(command, arg);
      RemoveFirstCount(command, arg);
    }
    CountPositive(r, arg);
  }

  /** Running the edit again with the same setting changes nothing, as long
      as the agent argument occurred at most once when Lombok is disabled
      (`list.remove` drops only one occurrence per run). */
  lemma {:induction false} EnableLombokIdempotent(command: seq<string>, setting: Option<Json>, lombokJar: string)
    requires EnableLombok(command, setting, lombokJar).Success?
    requires !LombokEnabled(setting) ==> Count(command, JavaagentArg(lombokJar)) <= 1
    ensures var r := EnableLombok(command, setting, lombokJar).value;
      EnableLombok(r, setting, lombokJar) == Success(r)
  {
    var arg := JavaagentArg(lombokJar);
    var r := EnableLombok(command, setting, lombokJar).value;
    EnableLombokCount(command, setting, lombokJar);
    CountPositive(r, arg);
  }

  /** A command in which the agent argument occurs twice loses one
      occurrence per run while Lombok is disabled. */
  lemma {:induction false} EnableLombokTwiceRemovesTwice(lombokJar: string)
    ensures var arg := JavaagentArg(lombokJar);
      var once := EnableLombok([arg, arg, "-jar"], None, lombokJar);
      once == Success([arg, "-jar"]) && EnableLombok(once.value, None, lombokJar) == Success(["-jar"])
  {
    var arg := JavaagentArg(lombokJar);
    var s := [arg, arg, "-jar"];
    IndexOfFirst(s, arg, 0);
    assert RemoveFirst(s, arg) == s[..0] + s[1..];
    assert s[..0] + s[1..] == [arg, "-jar"];
    assert EnableLombok(s, None, lombokJar) == Success([arg, "-jar"]);
    var t := [arg, "-jar"];
    IndexOfFirst(t, arg, 0);
    assert RemoveFirst(t, arg) == t[..0] + t[1..];
    assert t[..0] + t[1..] == ["-jar"];
  }

  /** Enabling Lombok and then disabling it restores a command that did not
      carry the agent argument. */
  lemma {:induction false} EnableThenDisable(command: seq<string>, on: Json, lombokJar: string)
    requires Truthy(on) && JavaagentArg(lombokJar) !in command && "-jar" in command
    ensures var enabled := EnableLombok(command, Some(on), lombokJar);
      enabled.Success? && EnableLombok(enabled.value, None, lombokJar) == Success(command)
  {
    var arg := JavaagentArg(lombokJar);
    var i := IndexOf(command, "-jar").value;
    var r := InsertAt(command, i, arg);
    assert EnableLombok(command, Some(on), lombokJar) == Success(r);
    RemoveInserted(command, i, arg);
    assert EnableLombok(r, None, lombokJar) == Success(RemoveFirst(r, arg));
  }

  // ---------------------------------------------------------------------
  // Bundles

  /** `_insert_bundles`: the configured bundles (none when absent or
      empty), followed by each jar path of the bundled extensions that is
      not among them yet. */
  function InsertBundles(bundles: Option<seq<string>>, jarPaths: seq<string>): (r: seq<string>)
    ensures var existing := bundles.GetOr([]);
      |existing| <= |r| && r[..|existing|] == existing &&
      (forall p :: p in jarPaths ==> p in r) &&
      (forall i :: |existing| <= i < |r| ==> r[i] in jarPaths && r[i] !in existing) &&
      (forall i, j :: |existing| <= i < j < |r| ==> r[i] != r[j])
  {
    AppendMissing(bundles.GetOr([]), jarPaths)
  }

  /** The bundles appended come in the order in which the jar paths first
      list them, and inserting the same jars again adds nothing. */
  lemma {:induction false} InsertBundlesStable(bundles: Option<seq<string>>, jarPaths: seq<string>)
    ensures var r := InsertBundles(bundles, jarPaths);
      IsSubsequence(r[|bundles.GetOr([])|..], jarPaths) &&
      InsertBundles(Some(r), jarPaths) == r
    ensures forall i, j :: |bundles.GetOr([])| <= i < j < |InsertBundles(bundles, jarPaths)| ==>
      IndexOf(jarPaths, InsertBundles(bundles, jarPaths)[i]).value < IndexOf(jarPaths, InsertBundles(bundles, jarPaths)[j]).value
  {
    AppendMissingOrder(bundles.GetOr([]), jarPaths);
    AppendMissingFirstOrder(bundles.GetOr([]), jarPaths);
    AppendMissingIdempotent(bundles.GetOr([]), jarPaths);
  }

  // ---------------------------------------------------------------------
  // Java home and executable

  /** A setting or variable that is there and not empty. */
  predicate Filled(s: Option<string>) {
    s.Some? && s.value != ""
  }

  /** The java-home fallback chain: the setting, then the deprecated
      setting, then the `JAVA_HOME` variable, the first that is filled. */
  function JavaHome(setting: Option<string>, deprecated: Option<string>, environment: Option<string>)
    : (home: Option<string>)
    ensures home.None? <==> !Filled(setting) && !Filled(deprecated) && !Filled(environment)
    ensures home.Some? ==> home.value != ""
    ensures Filled(setting) ==> home == setting
    ensures !Filled(setting) && Filled(deprecated) ==> home == deprecated
    ensures !Filled(setting) && !Filled(deprecated) && Filled(environment) ==> home == environment
  {
    if Filled(setting) then setting
    else if Filled(deprecated) then deprecated
    else if Filled(environment) then environment
    else None
  }

  /** `os.path.join` on POSIX for a relative second part: a separator goes
      between the parts unless the first is empty or already ends with
      one. */
  function PathJoin(a: string, b: string): (r: string)
    ensures a == [] || a[|a| - 1] == '/' ==> r == a + b
    ensures a != [] && a[|a| - 1] != '/' ==> r == a + "/" + b
  {
    if a == [] || a[|a| - 1] == '/' then a + b else a + "/" + b
  }

  /** The java executable: "bin/java" under the java home, or plain "java"
      (found on the PATH) without one. */
  function JavaExecutable(home: Option<string>): (exe: string)
    ensures home.None? ==> exe == "java"
    ensures home.Some? ==> StartsWith(exe, home.value)
  {
    if home.Some? then PathJoin(PathJoin(home.value, "bin"), "java") else "java"
  }

  /** Under a java home the executable ends in "/bin/java"; that is, it is
      `<home>/bin/java`, with no doubled separator when the home ends with
      one. */
  lemma {:induction false} JavaExecutableUnderHome(home: string)
    requires home != ""
    ensures var exe := JavaExecutable(Some(home));
      (home[|home| - 1] == '/' ==> exe == home + "bin/java") &&
      (home[|home| - 1] != '/' ==> exe == home + "/bin/java")
  {
    var bin := PathJoin(home, "bin");
    assert bin[|bin| - 1] == 'n';
  }

  // ---------------------------------------------------------------------
  // Platform

  /** `_jdtls_platform`: the server's name for the editor's platform;
      any other platform raises. */
  function JdtlsPlatform(platform: string): (r: Result<string>)
    ensures r.Success? <==> platform in {"windows", "osx", "linux"}
    ensures r.Failure? ==> r.error == "unknown platform: " + platform
    ensures platform == "windows" ==> r == Success("win")
    ensures platform == "osx" ==> r == Success("mac")
    ensures platform == "linux" ==> r == Success("linux")
  {
    if platform == "windows" then Success("win")
    else if platform == "osx" then Success("mac")
    else if platform == "linux" then Success("linux")
    else Failure("unknown platform: " + platform)
  }

  /** The editor's platform a server platform name stands for. */
  function EditorPlatform(jdtlsPlatform: string): string {
    if jdtlsPlatform == "win" then "windows"
    else if jdtlsPlatform == "mac" then "osx"
    else jdtlsPlatform
  }

  /** Distinct platforms get distinct names: the name determines the
      platform. */
  lemma JdtlsPlatformInverse(platform: string)
    requires JdtlsPlatform(platform).Success?
    ensures EditorPlatform(JdtlsPlatform(platform).value) == platform
  {
  }

  /** The server watches the editor's process everywhere except on
      Windows. */
  function WatchParentProcess(platform: string): (r: string)
    ensures r == "false" <==> platform == "windows"
    ensures r == "true" <==> platform != "windows"
  {
    if platform == "windows" then "false" else "true"
  }

  /** The inputs of `additional_variables` that come from outside. */
  datatype Environment = Environment(
    javaHomeSetting: Option<string>,
    javaHomeDeprecated: Option<string>,
    javaHomeVariable: Option<string>,
    platform: string,
    serverDir: string,
    dataDir: string,
    launcherVersion: string)

  const VARIABLE_NAMES: set<string> :=
    {"java_executable", "watch_parent_process", "jdtls_platform", "serverdir", "datadir", "launcher_version"}

  /** `additional_variables`: the six variables substituted into the launch
      command; building them raises on an unknown platform. */
  function AdditionalVariables(env: Environment): (r: Result<map<string, string>>)
    ensures r.Success? <==> JdtlsPlatform(env.platform).Success?
    ensures r.Success? ==>
      r.value.Keys == VARIABLE_NAMES &&
      r.value["java_executable"] == JavaExecutable(JavaHome(env.javaHomeSetting, env.javaHomeDeprecated, env.javaHomeVariable)) &&
      r.value["watch_parent_process"] == WatchParentProcess(env.platform) &&
      r.value["jdtls_platform"] == JdtlsPlatform(env.platform).value &&
      r.value["serverdir"] == env.serverDir && r.value["datadir"] == env.dataDir &&
      r.value["launcher_version"] == env.launcherVersion
  {
    var platform :- JdtlsPlatform(env.platform);
    Success(map[
      "java_executable" := JavaExecutable(JavaHome(env.javaHomeSetting, env.javaHomeDeprecated, env.javaHomeVariable)),
      "watch_parent_process" := WatchParentProcess(env.platform),
      "jdtls_platform" := platform,
      "serverdir" := env.serverDir,
      "datadir" := env.dataDir,
      "launcher_version" := env.launcherVersion])
  }

  /** On Windows the server does not watch its parent and is told "win". */
  lemma WindowsVariables(env: Environment)
    requires env.platform == "windows"
    ensures AdditionalVariables(env).Success?
    ensures AdditionalVariables(env).value["watch_parent_process"] == "false"
    ensures AdditionalVariables(env).value["jdtls_platform"] == "win"
  {
  }

  // ---------------------------------------------------------------------
  // Hooks

  /** `on_open_uri_async`: the plugin takes over only "jdt:" URIs, and only
      while its session is alive. */
  function OnOpenUri(uri: string, hasSession: bool): (handled: bool)
    ensures handled <==> StartsWith(uri, "jdt:") && hasSession
  {
    if !StartsWith(uri, "jdt:") then false
    else hasSession
  }

  /** The part of a URI before its first colon, when it has one. */
  function Scheme(uri: string): (scheme: Option<string>)
    ensures scheme.Some? <==> ':' in uri
    ensures scheme.Some? ==> ':' !in scheme.value && StartsWith(uri, scheme.value + ":")
  {
    match IndexOf(uri, ':')
    case Success(i) => (assert uri[..i + 1] == uri[..i] + ":"; Some(uri[..i]))
    case Failure(_) => None
  }

  /** The plugin takes over exactly the URIs of the "jdt" scheme, while its
      session is alive. */
  lemma {:induction false} OnOpenUriScheme(uri: string, hasSession: bool)
    ensures OnOpenUri(uri, hasSession) <==> hasSession && Scheme(uri) == Some("jdt")
  {
    if StartsWith(uri, "jdt:") {
      assert uri[3] == ':' && uri[..3] == "jdt";
      IndexOfFirst(uri, ':', 3);
    }
    if Scheme(uri) == Some("jdt") {
      var i := IndexOf(uri, ':').value;
      assert uri[..i] == "jdt";
      assert uri[..4] == uri[..i] + [uri[i]];
    }
  }

  /** `on_pre_server_command`: without a session nothing is handled;
      otherwise the command goes to the client-side table, with no
      arguments when it carries none, and counts as handled exactly when
      the table knows it. A handler that rejects the arguments raises. */
  function OnPreServerCommand(
    params: WorkspaceCommands.ExecuteCommandParams, hasSession: bool,
    projectData: Option<map<string, Json>>, nullAnalysisSetting: string): (r: Result<bool>)
    ensures !hasSession ==> r == Success(false)
    ensures hasSession ==>
      (r.Success? <==> WorkspaceCommands.HandleClientCommand(
        params.command, params.arguments.GetOr([]), projectData, nullAnalysisSetting).Success?)
    ensures hasSession && r.Success? ==> (r.value <==> params.command in WorkspaceCommands.CLIENT_COMMANDS)
  {
    if !hasSession then Success(false)
    else
      var handled :- WorkspaceCommands.HandleClientCommand(
        params.command, params.arguments.GetOr([]), projectData, nullAnalysisSetting);
      Success(handled.Some?)
  }

  /** The arguments reach the handler as sent; a command without them is
      handled as one with none. */
  lemma PreServerCommandArguments(
    command: string, hasSession: bool, projectData: Option<map<string, Json>>, nullAnalysisSetting: string)
    ensures OnPreServerCommand(WorkspaceCommands.ExecuteCommandParams(command, None), hasSession, projectData, nullAnalysisSetting) ==
            OnPreServerCommand(WorkspaceCommands.ExecuteCommandParams(command, Some([])), hasSession, projectData, nullAnalysisSetting)
  {
  }

  /** The request names a section the plugin maps to a view setting, and a
      scope. */
  predicate Mapped(params: map<string, Json>, mapping: map<string, string>) {
    "section" in params && "scopeUri" in params && params["section"].JStr? && params["section"].s in mapping
  }

  /** `on_workspace_configuration`: for a mapped section, the setting of the
      view the scope URI belongs to (`null` when the view lacks it), if the
      session and the view exist; in every other case the configuration
      as it is. A section that cannot be a dictionary key (a list or an
      object) raises on the lookup. */
  function OnWorkspaceConfiguration(
    params: map<string, Json>, configuration: Json, mapping: map<string, string>,
    hasSession: bool, viewSettings: Option<map<string, Json>>): (r: Result<Json>)
    ensures r.Failure? <==>
      "section" in params && "scopeUri" in params && (params["section"].JArr? || params["section"].JObj?)
    ensures r.Success? && !Mapped(params, mapping) ==> r.value == configuration
    ensures Mapped(params, mapping) && (!hasSession || viewSettings.None?) ==> r == Success(configuration)
    ensures Mapped(params, mapping) && hasSession && viewSettings.Some? ==>
      var key := mapping[params["section"].s];
      r == Success(if key in viewSettings.value then viewSettings.value[key] else JNull)
  {
    if "section" in params && "scopeUri" in params then
      var section := params["section"];
      if section.JArr? || section.JObj? then Failure("TypeError: unhashable type")
      else if section.JStr? && section.s in mapping && hasSession && viewSettings.Some? then
        var key := mapping[section.s];
        Success(if key in viewSettings.value then viewSettings.value[key] else JNull)
      else Success(configuration)
    else Success(configuration)
  }

  /** The answer for a mapped section is the view's setting, whatever the
      configuration: a setting stored under the mapped name is what the
      server reads back. */
  lemma WorkspaceConfigurationReadsSetting(
    params: map<string, Json>, configuration: Json, mapping: map<string, string>,
    settings: map<string, Json>, value: Json)
    requires Mapped(params, mapping)
    ensures OnWorkspaceConfiguration(
      params, configuration, mapping, true, Some(settings[mapping[params["section"].s] := value])) == Success(value)
  {
  }

  /** Without a session every hook leaves the request to the host: no URI
      is taken over, no command is handled, and the configuration comes back
      as it is unless the section cannot be a key. */
  lemma HooksWithoutSession(
    uri: string, command: WorkspaceCommands.ExecuteCommandParams,
    projectData: Option<map<string, Json>>, nullAnalysisSetting: string,
    params: map<string, Json>, configuration: Json, mapping: map<string, string>, viewSettings: Option<map<string, Json>>)
    ensures !OnOpenUri(uri, false)
    ensures OnPreServerCommand(command, false, projectData, nullAnalysisSetting) == Success(false)
    ensures OnWorkspaceConfiguration(params, configuration, mapping, false, viewSettings).Success? ==>
      OnWorkspaceConfiguration(params, configuration, mapping, false, viewSettings).value == configuration
  {
  }
}

=== FILE: json.dfy ===
/** JSON values as they arrive from the language server and as they are kept
    in project settings, with Python's truthiness test. Numbers are integers:
    floating-point values are not modelled. */
module Json {

  import opened Wrappers

  datatype Json =
    | JNull
    | JBool(b: bool)
    | JNum(n: int)
    | JStr(s: string)
    | JArr(elems: seq<Json>)
    | JObj(fields: map<string, Json>)

  /** Python's `bool(x)`: `None`, `False`, `0`, `""`, `[]` and `{}` are false,
      everything else is true. */
  predicate Truthy(j: Json) {
    match j
    case JNull => false
    case JBool(b) => b
    case JNum(n) => n != 0
    case JStr(s) => s != ""
    case JArr(a) => a != []
    case JObj(m) => m != map[]
  }

  /** The value reached by following the keys of `path` through nested
      objects, or `None` when a key is missing or a non-object is in the way. */
  function GetPath(j: Json, path: seq<string>): Option<Json>
    decreases |path|
  {
    if path == [] then Some(j)
    else match j
      case JObj(m) => if path[0] in m then GetPath(m[path[0]], path[1..]) else None
      case _ => None
  }

  /** The keys of the object found at `path` (empty when there is none). */
  function KeysAt(j: Json, path: seq<string>): set<string> {
    match GetPath(j, path)
    case Some(JObj(m)) => m.Keys
    case _ => {}
  }
}

=== FILE: pending_slot.dfy ===
/** A class-level register through which a quick panel hands its input
    handler to the dummy window command that opens the command palette: at
    most one handler can wait in it, and the command takes it out when the
    palette asks for input. There are two such registers, one per panel
    module: the window command's, shared by the two dialogs of
    `QuickInputPanel`, and the list handler's own, used by `QuickSelectPanel`.
    Each is a separate `Slot`, passed explicitly. */
module PendingSlot {

  import opened Wrappers

  datatype Slot<H> = Slot(pending: Option<H>)

  predicate HasPending<H>(s: Slot<H>) {
    s.pending.Some?
  }

  /** `enqueue`: refuses a second handler while one is waiting. */
  function Enqueue<H>(s: Slot<H>, handler: H): (r: Result<Slot<H>>)
    ensures r.Failure? <==> HasPending(s)
    ensures r.Failure? ==> r.error == "There is already an input handler pending."
    ensures r.Success? ==> r.value.pending == Some(handler)
  {
    if HasPending(s) then Failure("There is already an input handler pending.")
    else Success(Slot(Some(handler)))
  }

  /** `_consume_pending`: hands out whatever is waiting and empties the slot. */
  function ConsumePending<H>(s: Slot<H>): (r: (Option<H>, Slot<H>))
    ensures r.0 == s.pending
    ensures !HasPending(r.1)
  {
    (s.pending, Slot(None))
  }

  /** `show`: opening the palette requires a waiting handler; the slot itself
      is left as it is. */
  function Show<H>(s: Slot<H>): (r: Result<Slot<H>>)
    ensures r.Success? <==> HasPending(s)
    ensures r.Failure? ==> r.error == "There is no command input handler pending"
    ensures r.Success? ==> r.value == s
  {
    if HasPending(s) then Success(s) else Failure("There is no command input handler pending")
  }

  /** `input`: the palette takes the waiting handler; without one it raises.
      Either way the slot ends up empty. */
  function Input<H>(s: Slot<H>): (r: Result<(H, Slot<H>)>)
    ensures r.Success? <==> HasPending(s)
    ensures r.Failure? ==> r.error == "No pending list input handler."
    ensures r.Success? ==> Some(r.value.0) == s.pending && !HasPending(r.value.1)
  {
    var (handler, rest) := ConsumePending(s);
    if handler.Some? then Success((handler.value, rest)) else Failure("No pending list input handler.")
  }

  /** `is_visible`: the command shows in the palette only while a handler
      waits. */
  predicate IsVisible<H>(s: Slot<H>) {
    HasPending(s)
  }

  /** What one panel enqueues is exactly what the palette receives, and the
      slot is free again afterwards. */
  lemma EnqueueInputRoundTrip<H>(s: Slot<H>, handler: H)
    requires !HasPending(s)
    ensures Enqueue(s, handler).Success?
    ensures Input(Enqueue(s, handler).value) == Success((handler, Slot(None)))
  {
  }

  /** Two panels cannot both wait: the second `enqueue` fails until the first
      handler has been taken. */
  lemma EnqueueTwiceFails<H>(s: Slot<H>, first: H, second: H)
    requires Enqueue(s, first).Success?
    ensures Enqueue(Enqueue(s, first).value, second).Failure?
    ensures Enqueue(Input(Enqueue(s, first).value).value.1, second).Success?
  {
  }
}

=== FILE: protocol_extensions_handler.dfy ===
/** The language server's own notifications: an actionable notification
    asks the user to pick one of its commands (through a dialog whose shape
    depends on how many commands there are) and runs the chosen one; a
    progress report and a status report update the window's status. */
module ProtocolExtensions {

  import opened Wrappers
  import opened Json
  import opened QuickInputPanel
  import WorkspaceCommands

  type ExecuteCommandParams = WorkspaceCommands.ExecuteCommandParams

  /** An LSP `Command`: its title, the command, and the arguments when it
      carries any. */
  datatype Command = Command(title: string, command: string, arguments: Option<seq<Json>>)

  /** An `ActionableNotification`; `commands` may be absent. */
  datatype ActionableNotification = ActionableNotification(severity: int, message: string, commands: Option<seq<Command>>)

  /** The dialog the notification opens. */
  datatype Dialog =
    | MessageDialog(message: string)
    | OkCancelDialog(message: string, okTitle: string)
    | YesNoCancelDialog(message: string, yesTitle: string, noTitle: string)
    | CommandPicker(panel: ListPanel<Command>)

  /** The button of a yes/no/cancel dialog. */
  datatype YesNoCancel = DialogCancel | DialogYes | DialogNo

  /** What the user answered, for each kind of dialog. */
  datatype Answer =
    | MessageClosed
    | OkCancelAnswer(ok: bool)
    | YesNoCancelAnswer(button: YesNoCancel)
    | PickerAnswer(selection: Option<seq<SelectableItem<Command>>>)

  function Commands(n: ActionableNotification): seq<Command> {
    n.commands.GetOr([])
  }

  /** The picker's rows: each command under its title, carrying the command
      as its value. */
  function PickerItems(commands: seq<Command>): (r: seq<SelectableItem<Command>>)
    ensures |r| == |commands|
    ensures forall i :: 0 <= i < |r| ==>
      r[i].caption == commands[i].title && r[i].value == commands[i] && r[i].kind == KIND_AMBIGUOUS
  {
    seq(|commands|, i requires 0 <= i < |commands| => SelectableItem(commands[i].title, commands[i], "", "", KIND_AMBIGUOUS))
  }

  /** `language_actionableNotification`, first half: no commands (absent or
      empty) give a message box; one gives an OK/Cancel dialog titled after
      it; two a Yes/No/Cancel dialog with their titles; more a single-select
      picker over the titles, the first row preselected, the message as
      placeholder. */
  function DialogFor(n: ActionableNotification): (d: Dialog)
    ensures |Commands(n)| == 0 <==> d == MessageDialog(n.message)
    ensures |Commands(n)| == 1 <==> d.OkCancelDialog?
    ensures |Commands(n)| == 1 ==> d == OkCancelDialog(n.message, Commands(n)[0].title)
    ensures |Commands(n)| == 2 <==> d.YesNoCancelDialog?
    ensures |Commands(n)| == 2 ==> d == YesNoCancelDialog(n.message, Commands(n)[0].title, Commands(n)[1].title)
    ensures |Commands(n)| > 2 <==> d.CommandPicker?
    ensures |Commands(n)| > 2 ==>
      d.panel == NewListPanel(PickerItems(Commands(n)), 0, n.message, false)
  {
    var cs := Commands(n);
    if |cs| == 0 then MessageDialog(n.message)
    else if |cs| == 1 then OkCancelDialog(n.message, cs[0].title)
    else if |cs| == 2 then YesNoCancelDialog(n.message, cs[0].title, cs[1].title)
    else CommandPicker(NewListPanel(PickerItems(cs), 0, n.message, false))
  }

  /** The answer is one the dialog can give. */
  predicate Fits(d: Dialog, a: Answer) {
    match d
    case MessageDialog(_) => a.MessageClosed?
    case OkCancelDialog(_, _) => a.OkCancelAnswer?
    case YesNoCancelDialog(_, _, _) => a.YesNoCancelAnswer?
    case CommandPicker(_) => a.PickerAnswer?
  }

  /** Second half: the command the answer chooses. OK runs the only
      command, Yes the first and No the second of two, a non-empty picker
      selection the command of its first item; a message box, Cancel, and a
      closed picker choose none. */
  function ChosenCommand(n: ActionableNotification, a: Answer): (c: Option<Command>)
    requires Fits(DialogFor(n), a)
    ensures |Commands(n)| == 0 ==> c.None?
    ensures |Commands(n)| == 1 ==> (c.Some? <==> a.ok) && (c.Some? ==> c.value == Commands(n)[0])
    ensures |Commands(n)| == 2 ==>
      (a.button == DialogYes ==> c == Some(Commands(n)[0])) &&
      (a.button == DialogNo ==> c == Some(Commands(n)[1])) &&
      (a.button == DialogCancel ==> c.None?)
    ensures |Commands(n)| > 2 ==>
      (c.Some? <==> a.selection.Some? && a.selection.value != []) &&
      (c.Some? ==> c.value == a.selection.value[0].value)
  {
    var cs := Commands(n);
    match a
    case MessageClosed => None
    case OkCancelAnswer(ok) => if ok then Some(cs[0]) else None
    case YesNoCancelAnswer(button) =>
      if button == DialogYes then Some(cs[0]) else if button == DialogNo then Some(cs[1]) else None
    case PickerAnswer(selection) =>
      if selection.Some? && selection.value != [] then Some(selection.value[0].value) else None
  }

  /** `run_command`: nothing without a command; otherwise the command, with
      its arguments exactly when it has some. */
  function RunCommand(c: Option<Command>): (r: Option<ExecuteCommandParams>)
    ensures r.None? <==> c.None?
    ensures r.Some? ==> r.value.command == c.value.command && r.value.arguments == c.value.arguments
  {
    match c
    case None => None
    case Some(cmd) => Some(WorkspaceCommands.ExecuteCommandParams(cmd.command, cmd.arguments))
  }

  /** Choosing row `i` of the picker runs the `i`-th command. */
  lemma {:induction false} PickerRunsChosen(n: ActionableNotification, i: int)
    requires |Commands(n)| > 2 && 0 <= i < |Commands(n)|
    ensures DialogFor(n).CommandPicker?
    ensures var res := Confirm(DialogFor(n).panel, i).1;
      res.Resolved? && Fits(DialogFor(n), PickerAnswer(res.selection)) &&
      ChosenCommand(n, PickerAnswer(res.selection)) == Some(Commands(n)[i])
  {
    var p := DialogFor(n).panel;
    SingleSelectResolves(p, i);
  }

  /** Whatever the answer, the command run is one of the notification's. */
  lemma {:induction false} RunsOwnCommand(n: ActionableNotification, a: Answer)
    requires Fits(DialogFor(n), a)
    requires a.PickerAnswer? && a.selection.Some? ==>
      forall k :: 0 <= k < |a.selection.value| ==> a.selection.value[k] in PickerItems(Commands(n))
    ensures ChosenCommand(n, a).Some? ==> ChosenCommand(n, a).value in Commands(n)
  {
    var c := ChosenCommand(n, a);
    if c.Some? && a.PickerAnswer? {
      var item := a.selection.value[0];
      var i :| 0 <= i < |PickerItems(Commands(n))| && PickerItems(Commands(n))[i] == item;
      assert c.value == Commands(n)[i];
    }
  }

  // ---------------------------------------------------------------------
  // Status

  const DUMMY_PROGRESS_KEY: string := "jdtls-status-dummy-key"

  /** The status key of a progress report: its `id` when present, a fixed
      key otherwise. */
  function ProgressKey(id: Option<Json>): (key: Json)
    ensures id.Some? ==> key == id.value
    ensures id.None? ==> key == JStr(DUMMY_PROGRESS_KEY)
  {
    id.GetOr(JStr(DUMMY_PROGRESS_KEY))
  }

  /** What a progress report shows: the fraction of the work done (as a
      numerator and a denominator) with the report's task, and how long until the
      status is erased, when it is. */
  datatype ProgressStatus = ProgressStatus(key: Json, done: int, total: int, task: string, eraseAfterMs: Option<nat>)

  /** `language_progressReport`: an unfinished report shows the work done so
      far; a finished one shows all of it and erases the status a second
      later. The percentage divides by the total work, which raises when it
      is zero. */
  function ProgressReport(id: Option<Json>, complete: bool, workDone: int, totalWork: int, task: string)
    : (r: Result<ProgressStatus>)
    ensures r.Failure? <==> totalWork == 0
    ensures r.Success? ==> r.value.key == ProgressKey(id) && r.value.total == totalWork && r.value.task == task
    ensures r.Success? && !complete ==> r.value.done == workDone && r.value.eraseAfterMs.None?
    ensures r.Success? && complete ==> r.value.done == totalWork && r.value.eraseAfterMs == Some(1000)
  {
    if totalWork == 0 then Failure("ZeroDivisionError: division by zero")
    else if !complete then Success(ProgressStatus(ProgressKey(id), workDone, totalWork, task, None))
    else Success(ProgressStatus(ProgressKey(id), totalWork, totalWork, task, Some(1000)))
  }

  /** A finished report is the unfinished report of all the work, with the
      erase timer added; reports with the same id write under the same
      key. */
  lemma ProgressCompleteIsFull(id: Option<Json>, workDone: int, totalWork: int, task: string)
    requires totalWork != 0
    ensures ProgressReport(id, true, workDone, totalWork, task).value ==
      ProgressReport(id, false, totalWork, totalWork, task).value.(eraseAfterMs := Some(1000))
    ensures ProgressReport(id, true, workDone, totalWork, task).value.key ==
      ProgressReport(id, false, workDone, totalWork, task).value.key
  {
  }

  /** `language_status`: the message goes to the status bar unless it is
      absent or falsy. */
  function StatusMessage(message: Option<Json>): (shown: Option<Json>)
    ensures shown.Some? <==> message.Some? && Truthy(message.value)
    ensures shown.Some? ==> shown.value == message.value
  {
    if message.Some? && Truthy(message.value) then message else None
  }

  /** The values Python reads as false. */
  const FALSY: set<Json> := {JNull, JBool(false), JNum(0), JStr(""), JArr([]), JObj(map[])}

  /** A present message is shown unless it is one of Python's false
      values. */
  lemma {:induction false} StatusShownUnlessFalsy(message: Json)
    ensures StatusMessage(Some(message)).Some? <==> message !in FALSY
    ensures StatusMessage(None).None?
  {
    match message
    case JArr(a) => if a != [] { assert message != JArr([]); }
    case JObj(m) => if m != map[] { assert message != JObj(map[]); }
    case _ =>
  }
}

=== FILE: quick_input_panel.dfy ===
/** The quick panel every dialog of the plugin goes through: a list input
    handler that offers the items not chosen yet, keeps the chosen indices on
    a stack, and resolves with the chosen items (or with nothing when the
    panel is cancelled); and a text input handler that resolves with the
    typed text. Both reach the command palette through the window command's pending
    slot, which they share. */
module QuickInputPanel {

  import opened Wrappers
  import opened Seqs
  import opened PendingSlot

  /** The icon of a row: kind id, letter, name. */
  datatype Kind = Kind(id: int, letter: string, name: string)

  /** The kind of a row that has no particular kind. */
  const KIND_AMBIGUOUS: Kind := Kind(0, "", "")

  /** An item offered to the user, carrying the value handed back when it is
      chosen. `caption` is the item's `label`. */
  datatype SelectableItem<V> = SelectableItem(
    caption: string, value: V, details: string, annotation: string, kind: Kind)

  /** One row of the list the palette shows; `value` is what `confirm`
      receives when the row is chosen. */
  datatype ListInputItem = ListInputItem(
    text: string, value: int, details: string, annotation: string, kind: Kind)

  /** The value of the "Confirm" row of a multi-select list. */
  const CONFIRM_VALUE: int := -1

  const CONFIRM_ROW: ListInputItem :=
    ListInputItem("Confirm", CONFIRM_VALUE, "", "Accept this selection", KIND_AMBIGUOUS)

  /** A list dialog and its handler's state: `stack` holds the indices chosen
      so far, most recent last. */
  datatype ListPanel<V> = ListPanel(
    items: seq<SelectableItem<V>>,
    preselectIndex: int,
    placeholder: string,
    multiSelect: bool,
    finished: bool,
    stack: seq<int>)

  /** What a transition tells the caller waiting on the dialog's promise. */
  datatype Resolution<V> = Unresolved | Resolved(selection: Option<seq<SelectableItem<V>>>)

  /** A fresh handler for a dialog. */
  function NewListPanel<V>(items: seq<SelectableItem<V>>, preselectIndex: int, placeholder: string, multiSelect: bool)
    : (p: ListPanel<V>)
    ensures Valid(p) && !p.finished && p.stack == []
  {
    ListPanel(items, preselectIndex, placeholder, multiSelect, false, [])
  }

  /** Every chosen index denotes an item. */
  predicate Valid<V>(p: ListPanel<V>) {
    forall k :: 0 <= k < |p.stack| ==> 0 <= p.stack[k] < |p.items|
  }

  // ---------------------------------------------------------------------
  // The rows offered

  function Indices(n: nat): (r: seq<int>)
    ensures |r| == n && forall i :: 0 <= i < n ==> r[i] == i
  {
    seq(n, i requires 0 <= i => i)
  }

  function NotChosen(stack: seq<int>): int -> bool {
    i => i !in stack
  }

  /** The indices still offered, in increasing order. */
  function Offered<V>(p: ListPanel<V>): seq<int> {
    Filter(NotChosen(p.stack), Indices(|p.items|))
  }

  function Row<V>(items: seq<SelectableItem<V>>, i: int): ListInputItem {
    if 0 <= i < |items| then
      ListInputItem(items[i].caption, i, items[i].details, items[i].annotation, items[i].kind)
    else CONFIRM_ROW
  }

  function RowOf<V>(items: seq<SelectableItem<V>>): int -> ListInputItem {
    i => Row(items, i)
  }

  /** How many rows come before the first item: the "Confirm" row of a
      multi-select list. */
  function Offset<V>(p: ListPanel<V>): nat {
    if p.multiSelect then 1 else 0
  }

  predicate StrictlyIncreasing(s: seq<int>) {
    forall i, j :: 0 <= i < j < |s| ==> s[i] < s[j]
  }

  /** The rows of the items still offered: each carries the index of its
      item as value, in increasing order. */
  function ItemRows<V>(p: ListPanel<V>): (rows: seq<ListInputItem>)
    ensures |rows| == |Offered(p)|
    ensures forall k :: 0 <= k < |rows| ==>
      var i := rows[k].value;
      0 <= i < |p.items| && i !in p.stack &&
      rows[k] == ListInputItem(p.items[i].caption, i, p.items[i].details, p.items[i].annotation, p.items[i].kind)
    ensures forall k, l :: 0 <= k < l < |rows| ==> rows[k].value < rows[l].value
  {
    var offered := Offered(p);
    FilterMembers(NotChosen(p.stack), Indices(|p.items|));
    FilterIncreasing(NotChosen(p.stack), Indices(|p.items|));
    Map(RowOf(p.items), offered)
  }

  /** Every index that is not on the stack is offered. */
  lemma {:induction false} ItemRowsComplete<V>(p: ListPanel<V>, i: int)
    requires 0 <= i < |p.items| && i !in p.stack
    ensures exists k :: 0 <= k < |ItemRows(p)| && ItemRows(p)[k].value == i
  {
    assert Indices(|p.items|)[i] == i;
    FilterMembers(NotChosen(p.stack), Indices(|p.items|));
    var offered := Offered(p);
    var j :| 0 <= j < |offered| && offered[j] == i;
    assert ItemRows(p)[j].value == i;
  }

  /** `list_items`: the rows the palette shows, and the row to preselect.
      A multi-select list starts with "Confirm" and then lists the offered
      items; a single-select list lists the offered items only. The
      preselected row is the first once something is chosen, the configured
      one before that, counted past the "Confirm" row. */
  function ListItems<V>(p: ListPanel<V>): (r: (seq<ListInputItem>, int))
    ensures p.multiSelect ==> r.0 == [CONFIRM_ROW] + ItemRows(p)
    ensures !p.multiSelect ==> r.0 == ItemRows(p)
    ensures r.1 == (if |p.stack| > 0 then 0 else p.preselectIndex) + Offset(p)
  {
    var preselect := if |p.stack| > 0 then 0 else p.preselectIndex;
    if p.multiSelect then ([CONFIRM_ROW] + ItemRows(p), preselect + 1)
    else (ItemRows(p), preselect)
  }

  lemma {:induction false} TailIncreasing(s: seq<int>)
    requires s != [] && StrictlyIncreasing(s)
    ensures StrictlyIncreasing(s[1..])
    ensures forall k :: 0 <= k < |s[1..]| ==> s[0] < s[1..][k]
  {
    var tail := s[1..];
    forall i, j | 0 <= i < j < |tail|
      ensures tail[i] < tail[j]
    {
      assert tail[i] == s[i + 1] && tail[j] == s[j + 1];
    }
  }

  lemma {:induction false} ConsIncreasing(x: int, r: seq<int>)
    requires StrictlyIncreasing(r) && forall k :: 0 <= k < |r| ==> x < r[k]
    ensures StrictlyIncreasing([x] + r)
  {
    var t := [x] + r;
    forall i, j | 0 <= i < j < |t|
      ensures t[i] < t[j]
    {
      assert t[j] == r[j - 1];
      if i > 0 {
        assert t[i] == r[i - 1];
      }
    }
  }

  lemma {:induction false} FilterIncreasing(f: int -> bool, s: seq<int>)
    requires StrictlyIncreasing(s)
    ensures StrictlyIncreasing(Filter(f, s))
    decreases |s|
  {
    if s != [] {
      var tail := s[1..];
      TailIncreasing(s);
      FilterIncreasing(f, tail);
      FilterMembers(f, tail);
      var r := Filter(f, tail);
      forall k | 0 <= k < |r|
        ensures s[0] < r[k]
      {
        var j :| 0 <= j < |tail| && tail[j] == r[k];
      }
      if f(s[0]) {
        ConsIncreasing(s[0], r);
        assert Filter(f, s) == [s[0]] + r;
      } else {
        assert Filter(f, s) == [] + r;
      }
    }
  }

  /** Before anything is chosen, the preselected row is the configured item
      itself, in single- and in multi-select alike. */
  lemma {:induction false} PreselectDenotesConfigured<V>(p: ListPanel<V>)
    requires p.stack == [] && 0 <= p.preselectIndex < |p.items|
    ensures var (rows, preselect) := ListItems(p);
      0 <= preselect < |rows| && rows[preselect].value == p.preselectIndex
  {
    FilterKeepsAll(NotChosen(p.stack), Indices(|p.items|));
    var (rows, preselect) := ListItems(p);
    assert ItemRows(p)[p.preselectIndex] == Row(p.items, Offered(p)[p.preselectIndex]);
    assert rows[preselect] == ItemRows(p)[p.preselectIndex];
  }

  // ---------------------------------------------------------------------
  // Transitions

  /** The chosen items, in the order they were chosen. */
  function Selection<V>(items: seq<SelectableItem<V>>, stack: seq<int>): (r: seq<SelectableItem<V>>)
    requires forall k :: 0 <= k < |stack| ==> 0 <= stack[k] < |items|
    ensures |r| == |stack| && forall k :: 0 <= k < |stack| ==> r[k] == items[stack[k]]
  {
    seq(|stack|, k requires 0 <= k < |stack| => items[stack[k]])
  }

  /** `confirm(v)`: the "Confirm" row finishes, any other row pushes its
      index; a single-select dialog finishes on any row. A finished dialog
      resolves with the chosen items in the order they were chosen. */
  function Confirm<V>(p: ListPanel<V>, v: int): (r: (ListPanel<V>, Resolution<V>))
    requires Valid(p)
    requires v == CONFIRM_VALUE || 0 <= v < |p.items|
    ensures var (q, res) := r;
      Valid(q) && q.items == p.items && q.preselectIndex == p.preselectIndex &&
      q.multiSelect == p.multiSelect &&
      q.stack == (if v == CONFIRM_VALUE then p.stack else p.stack + [v]) &&
      (q.finished <==> p.finished || v == CONFIRM_VALUE || !p.multiSelect) &&
      (res.Resolved? <==> q.finished) &&
      (q.finished ==> res == Resolved(Some(Selection(q.items, q.stack))))
  {
    var stack := if v == CONFIRM_VALUE then p.stack else p.stack + [v];
    var finished := p.finished || v == CONFIRM_VALUE || !p.multiSelect;
    var q := p.(stack := stack, finished := finished);
    (q, if finished then Resolved(Some(Selection(q.items, stack))) else Unresolved)
  }

  /** `cancel`: steps back by forgetting the most recent choice, or, when
      nothing is chosen, resolves the dialog with nothing. */
  function Cancel<V>(p: ListPanel<V>): (r: (ListPanel<V>, Resolution<V>))
    requires Valid(p)
    ensures var (q, res) := r;
      Valid(q) && q.items == p.items && q.finished == p.finished &&
      (p.stack != [] ==> q.stack == p.stack[..|p.stack| - 1] && res == Unresolved) &&
      (p.stack == [] ==> q == p && res == Resolved(None))
  {
    if p.stack != [] then (p.(stack := p.stack[..|p.stack| - 1]), Unresolved)
    else (p, Resolved(None))
  }

  /** `next_input`: the handler asks for another round until it is finished. */
  function NextInput<V>(p: ListPanel<V>): (r: Option<ListPanel<V>>)
    ensures r.None? <==> p.finished
    ensures r.Some? ==> r.value == p
  {
    if p.finished then None else Some(p)
  }

  /** A single-select dialog resolves with exactly the chosen item and asks
      for nothing more. */
  lemma {:induction false} SingleSelectResolves<V>(p: ListPanel<V>, v: int)
    requires Valid(p) && !p.multiSelect && p.stack == [] && 0 <= v < |p.items|
    ensures Confirm(p, v).1 == Resolved(Some([p.items[v]]))
    ensures NextInput(Confirm(p, v).0).None?
  {
    assert p.stack + [v] == [v];
    assert Selection(p.items, [v]) == [p.items[v]];
  }

  /** In a multi-select dialog, cancelling right after choosing a row undoes
      the choice. */
  lemma {:induction false} CancelUndoesChoice<V>(p: ListPanel<V>, v: int)
    requires Valid(p) && p.multiSelect && !p.finished && 0 <= v < |p.items|
    ensures Confirm(p, v).1 == Unresolved
    ensures Cancel(Confirm(p, v).0) == (p, Unresolved)
  {
    assert (p.stack + [v])[..|p.stack|] == p.stack;
  }

  /** Choosing several rows one after the other. */
  function ConfirmAll<V>(p: ListPanel<V>, vs: seq<int>): (q: ListPanel<V>)
    requires Valid(p)
    requires forall k :: 0 <= k < |vs| ==> 0 <= vs[k] < |p.items|
    ensures Valid(q) && q.items == p.items
    decreases |vs|
  {
    if vs == [] then p else ConfirmAll(Confirm(p, vs[0]).0, vs[1..])
  }

  /** Choosing the rows `vs` in an unfinished multi-select dialog pushes
      them in order and leaves it unfinished. */
  lemma {:induction false} ConfirmAllPushes<V>(p: ListPanel<V>, vs: seq<int>)
    requires Valid(p) && p.multiSelect && !p.finished
    requires forall k :: 0 <= k < |vs| ==> 0 <= vs[k] < |p.items|
    ensures var q := ConfirmAll(p, vs);
      q.multiSelect && !q.finished && q.stack == p.stack + vs
    decreases |vs|
  {
    if vs != [] {
      var p' := Confirm(p, vs[0]).0;
      assert p'.multiSelect && !p'.finished && p'.stack == p.stack + [vs[0]];
      assert ConfirmAll(p, vs) == ConfirmAll(p', vs[1..]);
      ConfirmAllPushes(p', vs[1..]);
      assert p.stack + [vs[0]] + vs[1..] == p.stack + vs;
    } else {
      assert p.stack + vs == p.stack;
    }
  }

  /** A multi-select dialog that gets the rows `vs` chosen and then
      "Confirm" resolves with those items in the order they were chosen. */
  lemma {:induction false} MultiSelectKeepsOrder<V>(p: ListPanel<V>, vs: seq<int>)
    requires Valid(p) && p.multiSelect && !p.finished
    requires forall k :: 0 <= k < |vs| ==> 0 <= vs[k] < |p.items|
    ensures var q := ConfirmAll(p, vs);
      !q.finished && q.stack == p.stack + vs &&
      Confirm(q, CONFIRM_VALUE).1 == Resolved(Some(Selection(p.items, p.stack + vs)))
  {
    ConfirmAllPushes(p, vs);
  }

  /** Choosing only rows that are offered keeps the stack free of
      duplicates. */
  lemma {:induction false} ConfirmOfferedKeepsDistinct<V>(p: ListPanel<V>, v: int)
    requires Valid(p) && NoDuplicates(p.stack) && 0 <= v < |p.items| && v !in p.stack
    ensures NoDuplicates(Confirm(p, v).0.stack)
  {
    var s := Confirm(p, v).0.stack;
    forall i, j | 0 <= i < j < |s|
      ensures s[i] != s[j]
    {
      if j == |p.stack| {
        assert s[i] == p.stack[i];
      }
    }
  }

  // ---------------------------------------------------------------------
  // Text input

  /** A text dialog: `validate` and `preview` are the optional callbacks. */
  datatype TextPanel = TextPanel(
    placeholder: string,
    initialText: string,
    validate: Option<string -> bool>,
    preview: Option<string -> string>)

  /** What the user did with a text dialog. */
  datatype TextAnswer = TextConfirmed(text: string) | TextCancelled

  /** The text dialog resolves with the confirmed text, or with nothing when
      cancelled. */
  function ResolveText(answer: TextAnswer): (r: Option<string>)
    ensures r.Some? <==> answer.TextConfirmed?
    ensures answer.TextConfirmed? ==> r.value == answer.text
  {
    match answer
    case TextConfirmed(text) => Some(text)
    case TextCancelled => None
  }

  /** Without a validation callback every text is accepted. */
  function ValidateText(t: TextPanel, text: string): (ok: bool)
    ensures t.validate.None? ==> ok
    ensures t.validate.Some? ==> ok == t.validate.value(text)
  {
    if t.validate.Some? then t.validate.value(text) else true
  }

  /** Without a preview callback the preview is empty. */
  function PreviewText(t: TextPanel, text: string): (html: string)
    ensures t.preview.None? ==> html == ""
    ensures t.preview.Some? ==> html == t.preview.value(text)
  {
    if t.preview.Some? then t.preview.value(text) else ""
  }

  /** An absent callback behaves like one that accepts every text and
      previews nothing. */
  lemma DefaultCallbacks(t: TextPanel, text: string)
    ensures t.validate.None? ==> ValidateText(t, text) == ValidateText(t.(validate := Some(_ => true)), text)
    ensures t.preview.None? ==> PreviewText(t, text) == PreviewText(t.(preview := Some(_ => "")), text)
  {
  }

  // ---------------------------------------------------------------------
  // Showing a dialog

  /** What waits in the slot: a list or a text handler. */
  datatype Handler<V> = ListHandler(list: ListPanel<V>) | TextHandler(text: TextPanel)

  /** `QuickSelect.show` and `QuickTextInput.show`: put the handler in the
      slot and open the palette. Fails when another dialog is still waiting;
      otherwise the palette then receives exactly this handler. */
  function ShowDialog<V>(slot: Slot<Handler<V>>, handler: Handler<V>): (r: Result<Slot<Handler<V>>>)
    ensures r.Success? <==> !HasPending(slot)
    ensures r.Failure? ==> r.error == "There is already an input handler pending."
    ensures r.Success? ==> IsVisible(r.value) && Input(r.value) == Success((handler, Slot(None)))
  {
    var enqueued :- Enqueue(slot, handler);
    Show(enqueued)
  }
}

=== FILE: quick_select_panel.dfy ===
/** The older quick-select dialog: every item carries its own "selected"
    flag, choosing a row toggles that flag, and the dialog reopens itself
    after each choice until "Confirm" (or, in single-select, any row) is
    chosen; it then resolves with the items whose flag is set. It reaches
    the palette through its own pending slot. */
module QuickSelectPanel {

  import opened Wrappers
  import opened Seqs
  import opened PendingSlot
  import QuickInputPanel

  type Kind = QuickInputPanel.Kind
  type ListInputItem = QuickInputPanel.ListInputItem

  const KIND_ID_AMBIGUOUS: int := 0

  /** An item of the dialog. `caption` is the item's `label`. */
  datatype SelectableItem<V> = SelectableItem(
    caption: string, value: V, details: string, annotation: string, selected: bool, kindId: int)

  /** `_toggle`: flips the item's flag and nothing else. */
  function Toggle<V>(item: SelectableItem<V>): (r: SelectableItem<V>)
    ensures r.selected == !item.selected
    ensures r.(selected := item.selected) == item
  {
    item.(selected := !item.selected)
  }

  lemma ToggleTwice<V>(item: SelectableItem<V>)
    ensures Toggle(Toggle(item)) == item
  {
  }

  /** `get_kind`: the item's kind id with a filled circle when it is
      selected and an empty one when it is not. */
  function GetKind<V>(item: SelectableItem<V>): (k: Kind)
    ensures k.id == item.kindId && k.name == ""
    ensures k.letter == "●" <==> item.selected
    ensures k.letter == "○" <==> !item.selected
  {
    QuickInputPanel.Kind(item.kindId, if item.selected then "●" else "○", "")
  }

  /** The glyph shows every toggle. */
  lemma ToggleChangesGlyph<V>(item: SelectableItem<V>)
    ensures GetKind(Toggle(item)).letter != GetKind(item).letter
    ensures GetKind(Toggle(item)).id == GetKind(item).id
  {
  }

  /** A dialog and its handler's state. */
  datatype SelectPanel<V> = SelectPanel(
    items: seq<SelectableItem<V>>,
    preselectIndex: int,
    placeholder: string,
    multiSelect: bool,
    finished: bool)

  function NewSelectPanel<V>(items: seq<SelectableItem<V>>, preselectIndex: int, placeholder: string, multiSelect: bool)
    : (p: SelectPanel<V>)
    ensures p.items == items && !p.finished
  {
    SelectPanel(items, preselectIndex, placeholder, multiSelect, false)
  }

  function IsSelected<V>(item: SelectableItem<V>): bool {
    item.selected
  }

  /** `_get_current_selection`: the selected items, in their original
      order. */
  function CurrentSelection<V>(p: SelectPanel<V>): (r: seq<SelectableItem<V>>)
    ensures forall i :: 0 <= i < |r| ==> r[i].selected && r[i] in p.items
    ensures forall i :: 0 <= i < |p.items| && p.items[i].selected ==> p.items[i] in r
    ensures IsSubsequence(r, p.items)
    ensures forall x | x in p.items :: Count(r, x) == if x.selected then Count(p.items, x) else 0
  {
    FilterIsSubsequence(IsSelected, p.items);
    FilterMembers(IsSelected, p.items);
    var r := Filter(IsSelected, p.items);
    forall x | x in p.items
      ensures Count(r, x) == if x.selected then Count(p.items, x) else 0
    {
      FilterCount(IsSelected, p.items, x);
    }
    r
  }

  // ---------------------------------------------------------------------
  // Rows and values

  /** What a row stands for: the "Confirm" entry of a multi-select dialog,
      or the item at an index. */
  datatype Entry = ConfirmEntry | ItemEntry(index: nat)

  /** The handler's `current_items`: "Confirm" first in multi-select, then
      every item. */
  function CurrentItems<V>(p: SelectPanel<V>): (entries: seq<Entry>)
    ensures |entries| == |p.items| + (if p.multiSelect then 1 else 0)
    ensures p.multiSelect ==> entries[0] == ConfirmEntry
    ensures forall i :: 0 <= i < |p.items| ==>
      entries[if p.multiSelect then i + 1 else i] == ItemEntry(i)
    ensures forall v :: 0 <= v < |entries| && entries[v].ItemEntry? ==> entries[v].index < |p.items|
  {
    var itemEntries := seq(|p.items|, i requires 0 <= i => ItemEntry(i));
    if p.multiSelect then [ConfirmEntry] + itemEntries else itemEntries
  }

  const CONFIRM_ROW: ListInputItem :=
    QuickInputPanel.ListInputItem("Confirm", 0, "", "Accept this selection", QuickInputPanel.Kind(KIND_ID_AMBIGUOUS, "", ""))

  /** The row shows the entry: "Confirm", or the item's label, details,
      annotation and kind. */
  predicate Shows<V>(row: ListInputItem, entry: Entry, items: seq<SelectableItem<V>>) {
    match entry
    case ConfirmEntry => row.(value := 0) == CONFIRM_ROW
    case ItemEntry(i) =>
      i < |items| && row.text == items[i].caption && row.details == items[i].details &&
      row.annotation == items[i].annotation && row.kind == GetKind(items[i])
  }

  function RowFor<V>(items: seq<SelectableItem<V>>, entry: Entry, value: int): (row: ListInputItem)
    requires entry.ItemEntry? ==> entry.index < |items|
    ensures row.value == value && Shows(row, entry, items)
  {
    match entry
    case ConfirmEntry => CONFIRM_ROW.(value := value)
    case ItemEntry(i) =>
      QuickInputPanel.ListInputItem(items[i].caption, value, items[i].details, items[i].annotation, GetKind(items[i]))
  }

  /** `list_items`: one row per entry of `current_items`, whose value is the
      row's own position, so value `v` always denotes `current_items[v]`:
      in multi-select "Confirm" has value 0 and item `i` value `i + 1`.
      The preselect index is passed on as it is, not shifted. */
  function ListItems<V>(p: SelectPanel<V>): (r: (seq<ListInputItem>, int))
    ensures |r.0| == |CurrentItems(p)|
    ensures forall v :: 0 <= v < |r.0| ==> r.0[v].value == v && Shows(r.0[v], CurrentItems(p)[v], p.items)
    ensures r.1 == p.preselectIndex
  {
    var entries := CurrentItems(p);
    (seq(|entries|, v requires 0 <= v < |entries| => RowFor(p.items, entries[v], v)), p.preselectIndex)
  }

  /** In multi-select the row with value `i + 1` shows item `i`; in
      single-select the row with value `i` does. */
  lemma {:induction false} ListItemsAlignment<V>(p: SelectPanel<V>, i: nat)
    requires i < |p.items|
    ensures var rows := ListItems(p).0;
      var v := if p.multiSelect then i + 1 else i;
      v < |rows| && rows[v].value == v && rows[v].text == p.items[i].caption &&
      rows[v].kind == GetKind(p.items[i])
  {
    var rows := ListItems(p).0;
    var v := if p.multiSelect then i + 1 else i;
    assert CurrentItems(p)[v] == ItemEntry(i);
    assert Shows(rows[v], ItemEntry(i), p.items);
  }

  // ---------------------------------------------------------------------
  // Transitions

  /** What the dialog does after a choice: reopen itself, or resolve with
      the selection. */
  datatype Outcome<V> = Reshow | Resolved(selection: seq<SelectableItem<V>>)

  /** `confirm(v)`: the entry at row `v` reacts (an item toggles its flag,
      "Confirm" finishes the dialog), the row becomes the preselected one,
      and a single-select dialog finishes on any row. A finished dialog
      resolves with the current selection; otherwise it reopens. */
  function Confirm<V>(p: SelectPanel<V>, v: int): (r: (SelectPanel<V>, Outcome<V>))
    requires 0 <= v < |CurrentItems(p)|
    ensures var (q, out) := r;
      |q.items| == |p.items| && q.multiSelect == p.multiSelect && q.preselectIndex == v &&
      (forall i :: 0 <= i < |p.items| ==>
        q.items[i] == if CurrentItems(p)[v] == ItemEntry(i) then Toggle(p.items[i]) else p.items[i]) &&
      (q.finished <==> p.finished || CurrentItems(p)[v] == ConfirmEntry || !p.multiSelect) &&
      (out.Resolved? <==> q.finished) &&
      (q.finished ==> out == Resolved(CurrentSelection(q)))
  {
    var items := match CurrentItems(p)[v]
      case ConfirmEntry => p.items
      case ItemEntry(i) => p.items[i := Toggle(p.items[i])];
    var finished := p.finished || CurrentItems(p)[v] == ConfirmEntry || !p.multiSelect;
    var q := p.(items := items, preselectIndex := v, finished := finished);
    (q, if finished then Resolved(CurrentSelection(q)) else Reshow)
  }

  /** `next_input`: the dialog never chains another input; it reopens
      itself instead. */
  function NextInput<V>(p: SelectPanel<V>): (r: Option<SelectPanel<V>>)
    ensures r.None?
  {
    None
  }

  /** Where the list dialog of `QuickInputPanel` chains itself through
      `next_input` until it is finished, this dialog never does: a choice
      that does not finish it reopens it (`Reshow`), and one that does
      resolves it. */
  lemma ReopensInsteadOfChaining<V>(p: SelectPanel<V>, v: int)
    requires 0 <= v < |CurrentItems(p)|
    ensures NextInput(Confirm(p, v).0).None?
    ensures Confirm(p, v).1 == Reshow <==> !Confirm(p, v).0.finished
    ensures Confirm(p, v).1 != Reshow ==> Confirm(p, v).1 == Resolved(CurrentSelection(Confirm(p, v).0))
  {
  }

  /** Choosing the same item row twice in a multi-select dialog leaves the
      flags as they were. */
  lemma {:induction false} ChooseTwiceRestores<V>(p: SelectPanel<V>, i: nat)
    requires p.multiSelect && !p.finished && i < |p.items|
    ensures Confirm(p, i + 1).1 == Reshow
    ensures Confirm(Confirm(p, i + 1).0, i + 1).0 == p.(preselectIndex := i + 1)
  {
    var q := Confirm(p, i + 1).0;
    var q2 := Confirm(q, i + 1).0;
    assert q2.items == p.items;
  }

  /** In multi-select, "Confirm" changes no flag and resolves with the items
      selected so far. */
  lemma ConfirmRowResolves<V>(p: SelectPanel<V>)
    requires p.multiSelect
    ensures Confirm(p, 0).0.items == p.items
    ensures Confirm(p, 0).1 == Resolved(CurrentSelection(p))
  {
  }

  /** A single-select dialog in which nothing was selected resolves with
      exactly the chosen item. */
  lemma {:induction false} SingleSelectResolves<V>(p: SelectPanel<V>, v: nat)
    requires !p.multiSelect && v < |p.items|
    requires forall i :: 0 <= i < |p.items| ==> !p.items[i].selected
    ensures Confirm(p, v).1 == Resolved([Toggle(p.items[v])])
  {
    var q := Confirm(p, v).0;
    var sel := CurrentSelection(q);
    assert q.items[v].selected;
    forall k | 0 <= k < |sel|
      ensures sel[k] == Toggle(p.items[v])
    {
      var i :| 0 <= i < |q.items| && q.items[i] == sel[k];
      assert i == v;
    }
    assert |sel| == 1 by {
      FilterSelectedSingle(q.items, v);
    }
  }

  lemma {:induction false} FilterSelectedSingle<V>(items: seq<SelectableItem<V>>, v: nat)
    requires v < |items| && items[v].selected
    requires forall i :: 0 <= i < |items| && i != v ==> !items[i].selected
    ensures |Filter(IsSelected, items)| == 1
    decreases |items|
  {
    if v == 0 {
      FilterNone(IsSelected, items[1..]);
    } else {
      FilterSelectedSingle(items[1..], v - 1);
    }
  }

  /** Choosing an item of a single-select dialog whose flag was already set
      clears the flag, so the dialog resolves without the chosen item. */
  lemma SingleSelectDropsPreselected<V>(p: SelectPanel<V>, v: nat)
    requires !p.multiSelect && v < |p.items| && p.items[v].selected
    ensures Toggle(p.items[v]) !in Confirm(p, v).1.selection
  {
  }

  // ---------------------------------------------------------------------
  // Showing the dialog

  /** `show`: the handler enters the slot unless another one waits there,
      and the palette then receives it. The dialog reopening itself after a
      choice goes through the same step. */
  function Show<V>(slot: Slot<SelectPanel<V>>, p: SelectPanel<V>): (r: Result<Slot<SelectPanel<V>>>)
    ensures r.Success? <==> !HasPending(slot)
    ensures r.Failure? ==> r.error == "There is already an input handler pending."
    ensures r.Success? ==> IsVisible(r.value) && Input(r.value) == Success((p, Slot(None)))
  {
    Enqueue(slot, p)
  }
}

=== FILE: seqs.dfy ===
/** Sequence operations shared by the list manipulations of the plugin:
    filtering, mapping, concatenation, Python's `list.index`, `list.insert`,
    `list.remove`, and the "append if not already present" merge. */
module Seqs {

  import opened Wrappers

  /** The elements of `s` that satisfy `f`, in their original order
      (Python's `[x for x in s if f(x)]`). */
  function Filter<T>(f: T -> bool, s: seq<T>): (r: seq<T>)
    ensures |r| <= |s|
    ensures forall i :: 0 <= i < |r| ==> f(r[i])
    decreases |s|
  {
    if s == [] then []
    else (if f(s[0]) then [s[0]] else []) + Filter(f, s[1..])
  }

  /** `Filter` keeps exactly the elements that satisfy `f`. */
  lemma {:induction false} FilterMembers<T>(f: T -> bool, s: seq<T>)
    ensures forall i :: 0 <= i < |Filter(f, s)| ==> Filter(f, s)[i] in s
    ensures forall i :: 0 <= i < |s| && f(s[i]) ==> s[i] in Filter(f, s)
    decreases |s|
  {
    if s != [] {
      FilterMembers(f, s[1..]);
      var head := if f(s[0]) then [s[0]] else [];
      var rest := Filter(f, s[1..]);
      assert Filter(f, s) == head + rest;
      forall i | 0 <= i < |Filter(f, s)|
        ensures Filter(f, s)[i] in s
      {
        if i >= |head| {
          assert Filter(f, s)[i] == rest[i - |head|];
        }
      }
      forall i | 0 <= i < |s| && f(s[i])
        ensures s[i] in Filter(f, s)
      {
        if i > 0 {
          assert s[i] == s[1..][i - 1];
        }
      }
    }
  }

  /** One step of `Filter`. */
  lemma {:induction false} FilterCons<T>(f: T -> bool, x: T, s: seq<T>)
    ensures Filter(f, [x] + s) == (if f(x) then [x] else []) + Filter(f, s)
  {
    assert ([x] + s)[0] == x && ([x] + s)[1..] == s;
  }

  /** `g` applied to every element of `s`, in order. */
  function Map<T, U>(g: T -> U, s: seq<T>): (r: seq<U>)
    ensures |r| == |s|
    ensures forall i :: 0 <= i < |s| ==> r[i] == g(s[i])
  {
    seq(|s|, i requires 0 <= i < |s| => g(s[i]))
  }

  /** The concatenation of a list of sequences (Python's `"".join(parts)`). */
  function Concat<T>(parts: seq<seq<T>>): seq<T>
    decreases |parts|
  {
    if parts == [] then [] else parts[0] + Concat(parts[1..])
  }

  /** `a` can be obtained from `b` by deleting elements. */
  predicate IsSubsequence<T(==)>(a: seq<T>, b: seq<T>)
    decreases |b|
  {
    if a == [] then true
    else if b == [] then false
    else if a[0] == b[0] then IsSubsequence(a[1..], b[1..])
    else IsSubsequence(a, b[1..])
  }

  /** No element occurs twice. */
  predicate NoDuplicates<T(==)>(s: seq<T>) {
    forall i, j :: 0 <= i < j < |s| ==> s[i] != s[j]
  }

  /** Python's `s.index(x)`: the position of the first occurrence, or the
      `ValueError` raised when there is none. */
  function IndexOf<T(==)>(s: seq<T>, x: T): (r: Result<nat>)
    ensures r.Success? <==> x in s
    ensures r.Success? ==> r.value < |s| && s[r.value] == x && x !in s[..r.value]
    decreases |s|
  {
    if s == [] then Failure("is not in list")
    else if s[0] == x then Success(0)
    else match IndexOf(s[1..], x)
      case Success(i) => (assert s[1..][..i] == s[1..i + 1]; Success(i + 1))
      case Failure(e) => Failure(e)
  }

  /** `IndexOf` finds exactly the first occurrence. */
  lemma {:induction false} IndexOfFirst<T>(s: seq<T>, x: T, k: nat)
    requires k < |s| && s[k] == x && x !in s[..k]
    ensures IndexOf(s, x) == Success(k)
    decreases k
  {
    if k > 0 {
      assert s[1..][k - 1] == x && s[1..][..k - 1] == s[1..k];
      IndexOfFirst(s[1..], x, k - 1);
    }
  }

  /** Python's `s.insert(i, x)` for an index inside the list. */
  function InsertAt<T>(s: seq<T>, i: nat, x: T): (r: seq<T>)
    requires i <= |s|
    ensures |r| == |s| + 1 && r[i] == x
    ensures r[..i] == s[..i] && r[i + 1..] == s[i..]
  {
    s[..i] + [x] + s[i..]
  }

  /** Python's `s.remove(x)`: drops the first occurrence of `x` only. */
  function RemoveFirst<T(==)>(s: seq<T>, x: T): (r: seq<T>)
    requires x in s
    ensures |r| == |s| - 1
    ensures exists i :: 0 <= i < |s| && s[i] == x && x !in s[..i] && r == s[..i] + s[i + 1..]
  {
    var i := IndexOf(s, x).value;
    s[..i] + s[i + 1..]
  }

  /** Removing an element that was just inserted, and was not there before,
      gives back the original list. */
  lemma {:induction false} RemoveInserted<T>(s: seq<T>, i: nat, x: T)
    requires i <= |s| && x !in s
    ensures x in InsertAt(s, i, x) && RemoveFirst(InsertAt(s, i, x), x) == s
  {
    var r := InsertAt(s, i, x);
    assert x !in r[..i];
    IndexOfFirst(r, x, i);
    assert r[..i] + r[i + 1..] == s;
  }

  /** How many times `x` occurs in `s`. */
  function Count<T(==)>(s: seq<T>, x: T): nat
    decreases |s|
  {
    if s == [] then 0 else (if s[0] == x then 1 else 0) + Count(s[1..], x)
  }

  /** The count of a concatenation is the sum of the counts. */
  lemma {:induction false} CountAppend<T>(a: seq<T>, b: seq<T>, x: T)
    ensures Count(a + b, x) == Count(a, x) + Count(b, x)
    decreases |a|
  {
    if a != [] {
      CountAppend(a[1..], b, x);
      assert (a + b)[1..] == a[1..] + b;
    } else {
      assert a + b == b;
    }
  }

  /** Leaving out one occurrence lowers the count by one. */
  lemma {:induction false} CountWithout<T>(s: seq<T>, i: nat, x: T)
    requires i < |s| && s[i] == x
    ensures Count(s[..i] + s[i + 1..], x) == Count(s, x) - 1
  {
    CountAppend(s[..i], s[i + 1..], x);
    CountAppend(s[..i], s[i..], x);
    assert s[..i] + s[i..] == s;
    assert s[i..] == [x] + s[i + 1..];
    CountAppend([x], s[i + 1..], x);
    assert [x][1..] == [];
  }

  /** An element occurs at least once exactly when it is in the list. */
  lemma {:induction false} CountPositive<T>(s: seq<T>, x: T)
    ensures Count(s, x) > 0 <==> x in s
    decreases |s|
  {
    if s != [] {
      CountPositive(s[1..], x);
      assert s == [s[0]] + s[1..];
    }
  }

  /** Appends, in order, every element of `incoming` that is not yet in the
      list built so far, so an element already present (or appended earlier)
      is never appended again. */
  function AppendMissing<T(==)>(existing: seq<T>, incoming: seq<T>): (r: seq<T>)
    ensures |existing| <= |r| && r[..|existing|] == existing
    ensures forall x :: x in existing ==> x in r
    ensures forall x :: x in incoming ==> x in r
    ensures forall x :: x in r ==> x in existing || x in incoming
    ensures forall i :: |existing| <= i < |r| ==> r[i] !in existing
    ensures forall i, j :: |existing| <= i < j < |r| ==> r[i] != r[j]
    decreases |incoming|
  {
    if incoming == [] then existing
    else if incoming[0] in existing then AppendMissing(existing, incoming[1..])
    else AppendMissing(existing + [incoming[0]], incoming[1..])
  }

  // Lemmas

  lemma {:induction false} FilterAppend<T>(f: T -> bool, a: seq<T>, b: seq<T>)
    ensures Filter(f, a + b) == Filter(f, a) + Filter(f, b)
    decreases |a|
  {
    if a == [] {
      assert a + b == b;
    } else {
      assert (a + b)[1..] == a[1..] + b;
      FilterAppend(f, a[1..], b);
    }
  }

  /** `Filter` keeps every occurrence of an element that passes and none of
      one that does not. */
  lemma {:induction false} FilterCount<T>(f: T -> bool, s: seq<T>, x: T)
    ensures Count(Filter(f, s), x) == if f(x) then Count(s, x) else 0
    decreases |s|
  {
    if s != [] {
      FilterCount(f, s[1..], x);
      var head := if f(s[0]) then [s[0]] else [];
      CountAppend(head, Filter(f, s[1..]), x);
      if f(s[0]) {
        assert [s[0]][1..] == [];
      }
    }
  }

  /** Filtering keeps a list unchanged exactly when every element passes. */
  lemma {:induction false} FilterKeepsAll<T>(f: T -> bool, s: seq<T>)
    ensures Filter(f, s) == s <==> forall i :: 0 <= i < |s| ==> f(s[i])
    decreases |s|
  {
    if s != [] {
      FilterKeepsAll(f, s[1..]);
      if !f(s[0]) {
        assert |Filter(f, s)| < |s|;
      }
    }
  }

  /** Filtering with a test no element passes gives the empty list. */
  lemma {:induction false} FilterNone<T>(f: T -> bool, s: seq<T>)
    requires forall i :: 0 <= i < |s| ==> !f(s[i])
    ensures Filter(f, s) == []
    decreases |s|
  {
    if s != [] {
      FilterNone(f, s[1..]);
    }
  }

  lemma {:induction false} FilterIdempotent<T>(f: T -> bool, s: seq<T>)
    ensures Filter(f, Filter(f, s)) == Filter(f, s)
  {
    FilterKeepsAll(f, Filter(f, s));
  }

  lemma {:induction false} FilterIsSubsequence<T>(f: T -> bool, s: seq<T>)
    ensures IsSubsequence(Filter(f, s), s)
    decreases |s|
  {
    if s != [] {
      FilterIsSubsequence(f, s[1..]);
      if f(s[0]) {
        assert Filter(f, s)[0] == s[0] && Filter(f, s)[1..] == Filter(f, s[1..]);
      } else {
        assert Filter(f, s) == Filter(f, s[1..]);
        SubsequenceOfTail(Filter(f, s), s);
      }
    }
  }

  lemma {:induction false} SubsequenceOfTail<T>(a: seq<T>, b: seq<T>)
    requires b != [] && IsSubsequence(a, b[1..])
    ensures IsSubsequence(a, b)
    decreases |b|, 0
  {
    if a != [] && a[0] == b[0] {
      SubsequenceDropHead(a, b[1..]);
    }
  }

  lemma {:induction false} SubsequenceDropHead<T>(a: seq<T>, b: seq<T>)
    requires a != [] && IsSubsequence(a, b)
    ensures IsSubsequence(a[1..], b)
    decreases |b|, 1
  {
    if a[0] != b[0] {
      SubsequenceDropHead(a, b[1..]);
    }
    SubsequenceOfTail(a[1..], b);
  }

  lemma {:induction false} ConcatAppend<T>(a: seq<seq<T>>, b: seq<seq<T>>)
    ensures Concat(a + b) == Concat(a) + Concat(b)
    decreases |a|
  {
    if a == [] {
      assert a + b == b;
    } else {
      assert (a + b)[1..] == a[1..] + b;
      ConcatAppend(a[1..], b);
    }
  }

  lemma MapAppend<T, U>(g: T -> U, a: seq<T>, b: seq<T>)
    ensures Map(g, a + b) == Map(g, a) + Map(g, b)
  {
  }

  /** Merging a list whose elements are all present already changes nothing. */
  lemma {:induction false} AppendMissingPresent<T>(existing: seq<T>, incoming: seq<T>)
    requires forall x :: x in incoming ==> x in existing
    ensures AppendMissing(existing, incoming) == existing
    decreases |incoming|
  {
    if incoming != [] {
      AppendMissingPresent(existing, incoming[1..]);
    }
  }

  /** Merging the same list twice is the same as merging it once. */
  lemma {:induction false} AppendMissingIdempotent<T>(existing: seq<T>, incoming: seq<T>)
    ensures AppendMissing(AppendMissing(existing, incoming), incoming) == AppendMissing(existing, incoming)
  {
    AppendMissingPresent(AppendMissing(existing, incoming), incoming);
  }

  /** The appended part can be obtained from `incoming` by deleting
      elements. */
  lemma {:induction false} AppendMissingOrder<T>(existing: seq<T>, incoming: seq<T>)
    ensures IsSubsequence(AppendMissing(existing, incoming)[|existing|..], incoming)
    decreases |incoming|
  {
    var r := AppendMissing(existing, incoming);
    if incoming == [] {
      assert r[|existing|..] == [];
    } else if incoming[0] in existing {
      AppendMissingOrder(existing, incoming[1..]);
      SubsequenceOfTail(r[|existing|..], incoming);
    } else {
      var e' := existing + [incoming[0]];
      AppendMissingOrder(e', incoming[1..]);
      assert r[..|e'|] == e';
      assert r[|existing|..][0] == incoming[0];
      assert r[|existing|..][1..] == r[|e'|..];
    }
  }

  /** If the list had no duplicates, the merged list has none either. */
  lemma {:induction false} AppendMissingNoDuplicates<T>(existing: seq<T>, incoming: seq<T>)
    requires NoDuplicates(existing)
    ensures NoDuplicates(AppendMissing(existing, incoming))
  {
    var r := AppendMissing(existing, incoming);
    forall i, j | 0 <= i < j < |r|
      ensures r[i] != r[j]
    {
      if j < |existing| {
        assert r[i] == existing[i] && r[j] == existing[j];
      } else if i < |existing| {
        assert r[i] in existing;
      }
    }
  }

  /** An element other than the head is found one place further on than in
      the tail. */
  lemma IndexOfTail<T>(s: seq<T>, x: T)
    requires s != [] && x != s[0] && x in s
    ensures x in s[1..] && IndexOf(s, x).value == IndexOf(s[1..], x).value + 1
  {
  }

  /** From index `from` on, the elements of `r` all occur in `s` and come in
      the order of their first occurrence there. */
  ghost predicate FirstOrdered<T>(r: seq<T>, from: nat, s: seq<T>)
  {
    && (forall i :: from <= i < |r| ==> r[i] in s)
    && (forall i, j :: from <= i < j < |r| ==> IndexOf(s, r[i]).value < IndexOf(s, r[j]).value)
  }

  /** Prepending an element that does not occur in the suffix keeps it ordered. */
  lemma SkipHeadFirstOrdered<T>(r: seq<T>, from: nat, s: seq<T>)
    requires s != [] && FirstOrdered(r, from, s[1..])
    requires forall k :: from <= k < |r| ==> r[k] != s[0]
    ensures FirstOrdered(r, from, s)
  {
    forall i | from <= i < |r|
      ensures r[i] in s && IndexOf(s, r[i]).value == IndexOf(s[1..], r[i]).value + 1
    {
      IndexOfTail(s, r[i]);
    }
  }

  /** A suffix that starts with the head of `s`, and does not repeat it, stays
      ordered when the head is put back in front of `s`. */
  lemma TakeHeadFirstOrdered<T>(r: seq<T>, from: nat, s: seq<T>)
    requires s != [] && from < |r| && r[from] == s[0]
    requires FirstOrdered(r, from + 1, s[1..])
    requires forall k :: from < k < |r| ==> r[k] != s[0]
    ensures FirstOrdered(r, from, s)
  {
    forall i | from < i < |r|
      ensures r[i] in s && IndexOf(s, r[i]).value == IndexOf(s[1..], r[i]).value + 1
    {
      IndexOfTail(s, r[i]);
    }
  }

  /** The appended elements come in the order of their first occurrence in
      `incoming`. */
  lemma {:induction false} AppendMissingFirstOrder<T>(existing: seq<T>, incoming: seq<T>)
    ensures forall i, j :: |existing| <= i < j < |AppendMissing(existing, incoming)| ==>
      AppendMissing(existing, incoming)[i] in incoming && AppendMissing(existing, incoming)[j] in incoming &&
      IndexOf(incoming, AppendMissing(existing, incoming)[i]).value < IndexOf(incoming, AppendMissing(existing, incoming)[j]).value
    decreases |incoming|
  {
    var r := AppendMissing(existing, incoming);
    if incoming != [] {
      var x := incoming[0];
      var tail := incoming[1..];
      if x in existing {
        AppendMissingFirstOrder(existing, tail);
        assert r == AppendMissing(existing, tail);
        assert FirstOrdered(r, |existing|, tail);
        SkipHeadFirstOrdered(r, |existing|, incoming);
      } else {
        var e' := existing + [x];
        AppendMissingFirstOrder(e', tail);
        assert r == AppendMissing(e', tail);
        assert r[|existing|] == e'[|existing|];
        assert FirstOrdered(r, |e'|, tail);
        assert forall k :: |existing| < k < |r| ==> r[k] != x by {
          assert forall k :: |e'| <= k < |r| ==> r[k] !in e';
        }
        TakeHeadFirstOrdered(r, |existing|, incoming);
      }
      assert FirstOrdered(r, |existing|, incoming);
    }
  }
}

=== FILE: strings.dfy ===
/** The few Python string operations the plugin relies on: `startswith`,
    the substring test `p in s`, `s.split(sep)` for a one-character separator,
    and `str(n)` for a non-negative integer. */
module Strings {

  import opened Wrappers
  import Seqs

  /** Python's `s.startswith(prefix)`. */
  predicate StartsWith(s: string, prefix: string) {
    |prefix| <= |s| && s[..|prefix|] == prefix
  }

  /** `p` occurs in `s` starting at position `i`. */
  predicate OccursAt(p: string, s: string, i: int) {
    0 <= i && i + |p| <= |s| && s[i..i + |p|] == p
  }

  /** Python's substring test `p in s` (the empty string is in every string). */
  predicate Contains(s: string, p: string) {
    exists i | 0 <= i <= |s| - |p| :: OccursAt(p, s, i)
  }

  /** Python's `sep.join(parts)` for a one-character separator. */
  function Join(parts: seq<string>, sep: char): string
    decreases |parts|
  {
    if parts == [] then ""
    else if |parts| == 1 then parts[0]
    else parts[0] + [sep] + Join(parts[1..], sep)
  }

  /** Python's `s.split(sep)`: the pieces between the separators, so there is
      always one more piece than there are separators, and joining them back
      gives `s`. */
  function Split(s: string, sep: char): (parts: seq<string>)
    ensures |parts| == Seqs.Count(s, sep) + 1
    ensures forall i :: 0 <= i < |parts| ==> sep !in parts[i]
    ensures Join(parts, sep) == s
    decreases |s|
  {
    if s == [] then [""]
    else
      var rest := Split(s[1..], sep);
      if s[0] == sep then [""] + rest
      else [[s[0]] + rest[0]] + rest[1..]
  }

  /** The piece after the separator when `s` contains it exactly once. */
  lemma {:induction false} SplitInTwo(s: string, sep: char)
    requires |Split(s, sep)| == 2
    ensures sep in s
    ensures var i := Seqs.IndexOf(s, sep).value;
      Split(s, sep) == [s[..i], s[i + 1..]]
  {
    var parts := Split(s, sep);
    assert Join(parts, sep) == parts[0] + [sep] + parts[1];
    assert s[|parts[0]|] == sep;
    assert s[..|parts[0]|] == parts[0];
    Seqs.IndexOfFirst(s, sep, |parts[0]|);
    assert s[|parts[0]| + 1..] == parts[1];
  }

  function DigitChar(d: nat): char
    requires d < 10
  {
    "0123456789"[d]
  }

  function DigitValue(c: char): nat {
    if '0' <= c <= '9' then (c as int - '0' as int) as nat else 0
  }

  /** Python's `str(n)` for a non-negative integer: its decimal digits, with
      no leading zero. */
  function NatToString(n: nat): (s: string)
    ensures |s| > 0
    ensures forall i :: 0 <= i < |s| ==> '0' <= s[i] <= '9'
    ensures |s| > 1 ==> s[0] != '0'
    decreases n
  {
    if n < 10 then [DigitChar(n)] else NatToString(n / 10) + [DigitChar(n % 10)]
  }

  /** Reads a string of decimal digits back as a number. */
  function ParseDecimal(s: string): nat
    decreases |s|
  {
    if s == [] then 0 else 10 * ParseDecimal(s[..|s| - 1]) + DigitValue(s[|s| - 1])
  }

  /** Rendering a port number and reading it back gives the same number. */
  lemma {:induction false} NatToStringRoundTrip(n: nat)
    ensures ParseDecimal(NatToString(n)) == n
    decreases n
  {
    var s := NatToString(n);
    if n < 10 {
      assert DigitValue(DigitChar(n)) == n;
    } else {
      NatToStringRoundTrip(n / 10);
      assert s[..|s| - 1] == NatToString(n / 10);
      assert DigitValue(s[|s| - 1]) == n % 10;
    }
  }

  /** Different numbers render as different strings. */
  lemma {:induction false} NatToStringInjective(m: nat, n: nat)
    requires NatToString(m) == NatToString(n)
    ensures m == n
  {
    NatToStringRoundTrip(m);
    NatToStringRoundTrip(n);
  }
}

=== FILE: test_extension_client_command_handler.dfy ===
/** The test extension's own handler for `workspace/executeClientCommand`:
    it only answers the choice question, through the plain quick panel,
    which picks one row (or none). Unlike the general handler it reads an
    item's value by presence, not by truth value. */
module TestClientCommands {

  import opened Wrappers
  import opened Json
  import ClientCommands

  type ChoiceItem = ClientCommands.ChoiceItem

  /** A row of the plain quick panel: the label, and the description below
      it. */
  datatype QuickPanelItem = QuickPanelItem(trigger: string, details: string)

  /** `execute_client_command`: only the choice question has a handler,
      which takes three arguments; any other command is only logged. */
  function Dispatch(command: string, arguments: seq<Json>): (r: Result<Option<ClientCommands.ClientRequest>>)
    ensures command != ClientCommands.ASK_CLIENT_FOR_CHOICE ==> r == Success(None)
    ensures command == ClientCommands.ASK_CLIENT_FOR_CHOICE ==>
      (r.Success? <==> |arguments| == 3) &&
      (r.Success? ==> r.value == Some(ClientCommands.AskForChoice(arguments[0], arguments[1], arguments[2])))
  {
    if command == ClientCommands.ASK_CLIENT_FOR_CHOICE then
      if |arguments| == 3 then Success(Some(ClientCommands.AskForChoice(arguments[0], arguments[1], arguments[2])))
      else Failure("TypeError: _ask_client_for_choice takes three arguments")
    else Success(None)
  }

  /** The two handlers agree on the choice question and on nothing else.
      This one is given the arguments themselves, where the general one
      reads them from the request. */
  lemma DispatchAgreesOnChoice(command: string, arguments: seq<Json>)
    ensures command == ClientCommands.ASK_CLIENT_FOR_CHOICE ==>
      Dispatch(command, arguments) == ClientCommands.Dispatch(command, Some(arguments))
    ensures command in ClientCommands.CLIENT_COMMAND_REQUESTS - {ClientCommands.ASK_CLIENT_FOR_CHOICE} ==>
      Dispatch(command, arguments) == Success(None) &&
      ClientCommands.Dispatch(command, Some(arguments)) != Success(None)
  {
  }

  /** `panel_items`: one row per item, with its label and its description
      (empty when absent). The placeholder is handed to the editor's panel
      unchanged and is not recorded here. */
  function PanelItems(items: seq<ChoiceItem>): (r: seq<QuickPanelItem>)
    ensures |r| == |items|
    ensures forall i :: 0 <= i < |items| ==>
      r[i].trigger == items[i].caption && r[i].details == items[i].description.GetOr("")
  {
    seq(|items|, i requires 0 <= i < |items| => QuickPanelItem(items[i].caption, items[i].description.GetOr("")))
  }

  /** `on_select`: -1 (the panel closed) answers `null`; otherwise the item's
      value when it has one, whatever it is, and its label when it has none.
      A multi-select question gets that answer wrapped in a list, since the
      panel picks a single row. */
  function OnSelect(items: seq<ChoiceItem>, multiSelect: bool, index: int): (r: Json)
    requires -1 <= index < |items|
    ensures index == -1 ==> r == JNull
    ensures index != -1 && !multiSelect ==>
      r == if items[index].value.Some? then items[index].value.value else JStr(items[index].caption)
    ensures index != -1 && multiSelect ==>
      r == JArr([OnSelect(items, false, index)])
  {
    if index == -1 then JNull
    else
      var response := if items[index].value.Some? then items[index].value.value else JStr(items[index].caption);
      if multiSelect then JArr([response]) else response
  }

  /** The two handlers answer alike for an item whose value is absent or
      truthy, and differently for one whose value is there but falsy (an
      empty string, `false`, `0`, `null`): this one sends the value, the
      general one the label. */
  lemma PresenceVersusTruthiness(items: seq<ChoiceItem>, index: int)
    requires 0 <= index < |items|
    ensures var item := items[index];
      (item.value.None? || Truthy(item.value.value)) ==>
        OnSelect(items, false, index) == ClientCommands.Answer(item)
    ensures var item := items[index];
      (item.value.Some? && !Truthy(item.value.value)) ==>
        OnSelect(items, false, index) == item.value.value &&
        ClientCommands.Answer(item) == JStr(item.caption)
  {
  }

  /** For instance, an item whose value is the empty string. */
  lemma EmptyValueDiffers()
    ensures var item := ClientCommands.ChoiceItem("run", Some(JStr("")), None, None, None);
      OnSelect([item], false, 0) == JStr("") && ClientCommands.Answer(item) == JStr("run")
  {
  }
}

=== FILE: test_extension_commands.dfy ===
/** The decisions the test commands take before handing a launch
    configuration to the debugger: which test item to run, what name to ask
    the language server about, how the class path is merged, how the result
    server's port reaches the runner's arguments, and which runner a test
    framework gets. */
module TestCommands {

  import opened Wrappers
  import opened Seqs
  import opened Strings
  import opened TestProtocol
  import opened Utils

  // ---------------------------------------------------------------------
  // The name of a test

  /** The name the launch arguments are requested for: the fully qualified
      name for TestNG items and for classes, the JDT handle otherwise. */
  function GetTestName(item: TestItem): (name: string)
    ensures item.testKind == TestNG ==> name == item.fullName
    ensures item.testLevel == Class ==> name == item.fullName
    ensures item.testKind != TestNG && item.testLevel != Class ==> name == item.jdtHandler
  {
    if item.testKind == TestNG then item.fullName
    else if item.testLevel == Class then item.fullName
    else item.jdtHandler
  }

  // ---------------------------------------------------------------------
  // TestNG runner arguments

  /** A method-level item whose id has the shape `<project>@<rest>`, with
      exactly one '@'. */
  predicate HasMethodId(t: TestItem) {
    t.testLevel == Method && |Split(t.id, '@')| == 2
  }

  /** The part of such an id after the '@'. */
  function MethodRef(t: TestItem): string {
    var parts := Split(t.id, '@');
    if |parts| == 2 then parts[1] else ""
  }

  /** The items of the tree under `item` that contribute a runner argument,
      in flattening order. */
  function TestNgMethods(item: TestItem): seq<TestItem> {
    Filter(HasMethodId, Flatten([item]))
  }

  /** `get_test_ng_args`: the port and "testng", then the part after '@' of
      every method id in flattening order. */
  function TestNgArguments(port: nat, item: TestItem): (args: seq<string>)
    ensures |args| == 2 + |TestNgMethods(item)|
    ensures args[0] == NatToString(port) && args[1] == "testng"
  {
    [NatToString(port), "testng"] + Map(MethodRef, TestNgMethods(item))
  }

  /** Each argument drawn from a sequence of items is the part after the
      '@' of a method-level item of that sequence. */
  lemma {:induction false} RefOfMethod(items: seq<TestItem>, k: nat)
    requires k < |Filter(HasMethodId, items)|
    ensures var t := Filter(HasMethodId, items)[k];
      t in items && t.testLevel == Method && '@' in t.id &&
      Map(MethodRef, Filter(HasMethodId, items))[k] == t.id[IndexOf(t.id, '@').value + 1..]
  {
    var t := Filter(HasMethodId, items)[k];
    FilterMembers(HasMethodId, items);
    assert HasMethodId(t);
    MethodRefAfterAt(t);
  }

  /** After the header come, in flattening order, the method-level items of
      the tree whose id holds an '@', each as the part of its id after the
      '@'. */
  lemma {:induction false} TestNgArgumentsRefs(port: nat, item: TestItem)
    ensures forall k :: 0 <= k < |TestNgMethods(item)| ==>
      var t := TestNgMethods(item)[k];
      t in Flatten([item]) && t.testLevel == Method && '@' in t.id &&
      TestNgArguments(port, item)[k + 2] == t.id[IndexOf(t.id, '@').value + 1..]
  {
    var flattened := Flatten([item]);
    var refs := Map(MethodRef, Filter(HasMethodId, flattened));
    forall k | 0 <= k < |refs| {
      RefOfMethod(flattened, k);
    }
    assert TestNgArguments(port, item)[2..] == refs;
  }

  lemma {:induction false} MethodRefAfterAt(t: TestItem)
    requires HasMethodId(t)
    ensures '@' in t.id && MethodRef(t) == t.id[IndexOf(t.id, '@').value + 1..]
  {
    SplitInTwo(t.id, '@');
  }

  /** What one item of the flattened tree contributes to the arguments. */
  lemma {:induction false} ArgumentsOfItem(t: TestItem)
    ensures Map(MethodRef, Filter(HasMethodId, [t])) ==
      if t.testLevel == Method && |Split(t.id, '@')| == 2 then [Split(t.id, '@')[1]] else []
  {
    FilterCons(HasMethodId, t, []);
    assert [t] + [] == [t];
  }

  /** The arguments of a longer prefix add one item's contribution. */
  lemma {:induction false} ArgumentsStep(flattened: seq<TestItem>, i: nat)
    requires i < |flattened|
    ensures Map(MethodRef, Filter(HasMethodId, flattened[..i + 1])) ==
      Map(MethodRef, Filter(HasMethodId, flattened[..i])) + Map(MethodRef, Filter(HasMethodId, [flattened[i]]))
  {
    assert flattened[..i + 1] == flattened[..i] + [flattened[i]];
    FilterAppend(HasMethodId, flattened[..i], [flattened[i]]);
    MapAppend(MethodRef, Filter(HasMethodId, flattened[..i]), Filter(HasMethodId, [flattened[i]]));
  }

  /** The loop of `get_test_ng_args`, which walks the flattened tree once
      and collects the part after the '@' of every method id. */
  method MethodRefs(flattened: seq<TestItem>) returns (refs: seq<string>)
    ensures refs == Map(MethodRef, Filter(HasMethodId, flattened))
  {
    refs := [];
    var i := 0;
    while i < |flattened|
      invariant 0 <= i <= |flattened|
      invariant refs == Map(MethodRef, Filter(HasMethodId, flattened[..i]))
    {
      var test := flattened[i];
      ArgumentsStep(flattened, i);
      ArgumentsOfItem(test);
      if test.testLevel == Method {
        var split := Split(test.id, '@');
        if |split| == 2 {
          refs := refs + [split[1]];
        }
      }
      i := i + 1;
    }
    assert flattened[..i] == flattened;
  }

  /** `get_test_ng_args`, with its loop. */
  method TestNgArgs(port: nat, item: TestItem) returns (args: seq<string>)
    ensures args == TestNgArguments(port, item)
  {
    var refs := MethodRefs(Flatten([item]));
    args := [NatToString(port), "testng"] + refs;
  }

  lemma {:induction false} MethodRefHasNoAt(t: TestItem)
    ensures '@' !in MethodRef(t)
  {
    var parts := Split(t.id, '@');
    if |parts| == 2 {
      assert '@' !in parts[1];
    }
  }

  /** No argument after the header contains an '@'. */
  lemma {:induction false} TestNgArgumentsHaveNoAt(port: nat, item: TestItem)
    ensures forall k :: 2 <= k < |TestNgArguments(port, item)| ==> '@' !in TestNgArguments(port, item)[k]
  {
    var refs := Map(MethodRef, TestNgMethods(item));
    forall k | 0 <= k < |refs|
      ensures '@' !in refs[k]
    {
      MethodRefHasNoAt(TestNgMethods(item)[k]);
    }
    var args := TestNgArguments(port, item);
    assert args == [NatToString(port), "testng"] + refs;
    forall k | 2 <= k < |args|
      ensures '@' !in args[k]
    {
      assert args[k] == refs[k - 2];
    }
  }

  /** The runner reads back the port the result server listens on. */
  lemma {:induction false} TestNgArgumentsPort(port: nat, item: TestItem)
    ensures ParseDecimal(TestNgArguments(port, item)[0]) == port
  {
    NatToStringRoundTrip(port);
  }

  /** A class without method-level items yields the header only. */
  lemma {:induction false} TestNgArgumentsNoMethods(port: nat, item: TestItem)
    requires forall t :: t in Flatten([item]) ==> t.testLevel != Method
    ensures TestNgArguments(port, item) == [NatToString(port), "testng"]
  {
    var flattened := Flatten([item]);
    FilterNone(HasMethodId, flattened);
  }

  // ---------------------------------------------------------------------
  // Choosing the item to run

  /** Run-test-class: the first class-level item of the list (the tree is not
      searched), or `None` when there is none, in which case nothing runs. */
  function SelectTestClass(items: seq<TestItem>): (r: Option<TestItem>)
    ensures r.None? <==> forall i :: 0 <= i < |items| ==> items[i].testLevel != Class
    ensures r.Some? ==> exists k :: (0 <= k < |items| && items[k] == r.value &&
      r.value.testLevel == Class &&
      forall j :: 0 <= j < k ==> items[j].testLevel != Class)
    decreases |items|
  {
    if items == [] then None
    else if items[0].testLevel == Class then Some(items[0])
    else
      var r := SelectTestClass(items[1..]);
      if r.Some? then
        var k :| 0 < k + 1 <= |items[1..]| && items[1..][k] == r.value && r.value.testLevel == Class &&
          forall j :: 0 <= j < k ==> items[1..][j].testLevel != Class;
        assert items[k + 1] == r.value;
        assert forall j :: 1 <= j < k + 1 ==> items[j] == items[1..][j - 1];
        r
      else
        assert forall i :: 1 <= i < |items| ==> items[i] == items[1..][i - 1];
        r
  }

  /** A method-level test with a range that starts on or above the cursor
      line. */
  predicate Qualifies(t: TestItem, cursorLine: nat) {
    t.testLevel == Method && t.range.Some? && t.range.value.start.line <= cursorLine
  }

  predicate NoneQualifies(tests: seq<TestItem>, cursorLine: nat) {
    forall i :: 0 <= i < |tests| ==> !Qualifies(tests[i], cursorLine)
  }

  function StartLine(t: TestItem): nat {
    if t.range.Some? then t.range.value.start.line else 0
  }

  /** Run-at-cursor: among the tests of the flattened tree that qualify, the
      one starting lowest in the file; on equal start lines the earliest in
      flattening order. Nothing runs when the list is empty, when there is no
      cursor, or when no test qualifies. */
  method SelectTestAtCursor(items: seq<TestItem>, cursorLine: Option<nat>) returns (r: Option<TestItem>)
    ensures items == [] || cursorLine.None? ==> r.None?
    ensures items != [] && cursorLine.Some? ==>
      (r.None? <==> NoneQualifies(Flatten(items), cursorLine.value))
    ensures r.Some? ==> cursorLine.Some? && exists k :: (0 <= k < |Flatten(items)| &&
      Flatten(items)[k] == r.value && Qualifies(r.value, cursorLine.value) &&
      (forall j :: 0 <= j < |Flatten(items)| && Qualifies(Flatten(items)[j], cursorLine.value) ==>
        StartLine(Flatten(items)[j]) <= StartLine(r.value)) &&
      (forall j :: 0 <= j < k && Qualifies(Flatten(items)[j], cursorLine.value) ==>
        StartLine(Flatten(items)[j]) < StartLine(r.value)))
  {
    if items == [] {
      return None;
    }
    if cursorLine.None? {
      return None;
    }
    var line := cursorLine.value;
    var flattened := Flatten(items);
    r := None;
    var k := 0;
    var i := 0;
    while i < |flattened|
      invariant 0 <= i <= |flattened|
      invariant r.None? <==> forall j :: 0 <= j < i ==> !Qualifies(flattened[j], line)
      invariant r.Some? ==> 0 <= k < i && flattened[k] == r.value && Qualifies(r.value, line)
      invariant r.Some? ==> forall j :: 0 <= j < i && Qualifies(flattened[j], line) ==>
        StartLine(flattened[j]) <= StartLine(r.value)
      invariant r.Some? ==> forall j :: 0 <= j < k && Qualifies(flattened[j], line) ==>
        StartLine(flattened[j]) < StartLine(r.value)
    {
      var test := flattened[i];
      if test.testLevel == Method {
        if test.range.Some? && test.range.value.start.line <= line {
          if r.None? || test.range.value.start.line > r.value.range.value.start.line {
            r := Some(test);
            k := i;
          }
        }
      }
      i := i + 1;
    }
    assert r.None? <==> NoneQualifies(flattened, line);
  }

  /** The names requested for the items the two run commands pick: a class
      chosen by run-test-class by its full name, a method chosen at the
      cursor by its JDT handle unless it is a TestNG test. */
  lemma SelectedTestNames(items: seq<TestItem>, t: TestItem, cursorLine: nat)
    ensures SelectTestClass(items).Some? ==>
      GetTestName(SelectTestClass(items).value) == SelectTestClass(items).value.fullName
    ensures Qualifies(t, cursorLine) ==>
      GetTestName(t) == if t.testKind == TestNG then t.fullName else t.jdtHandler
  {
  }

  // ---------------------------------------------------------------------
  // The port of the JUnit result server

  /** Replaces the element after "-port" (the placeholder the language server
      puts there) with the port of the result server. Fails like Python's
      `list.index` when "-port" is missing, and like the list assignment
      when "-port" is the last element. */
  function SubstitutePort(programArguments: seq<string>, port: nat): (r: Result<seq<string>>)
    ensures r.Success? <==> ("-port" in programArguments &&
      IndexOf(programArguments, "-port").value + 1 < |programArguments|)
    ensures r.Success? ==>
      var k := IndexOf(programArguments, "-port").value;
      |r.value| == |programArguments| &&
      r.value[k + 1] == NatToString(port) &&
      forall j :: 0 <= j < |programArguments| && j != k + 1 ==> r.value[j] == programArguments[j]
  {
    var k :- IndexOf(programArguments, "-port");
    if k + 1 < |programArguments| then
      Success(programArguments[k + 1 := NatToString(port)])
    else
      Failure("list assignment index out of range")
  }

  /** The first "-port" stays where it was: a port number is never "-port". */
  lemma {:induction false} SubstitutePortKeepsFlag(programArguments: seq<string>, port: nat)
    requires SubstitutePort(programArguments, port).Success?
    ensures IndexOf(SubstitutePort(programArguments, port).value, "-port") == IndexOf(programArguments, "-port")
  {
    var k := IndexOf(programArguments, "-port").value;
    var r := SubstitutePort(programArguments, port).value;
    assert NatToString(port)[0] != '-';
    assert r[..k] == programArguments[..k];
    IndexOfFirst(r, "-port", k);
  }

  /** Substituting again only replaces the port: the last substitution
      decides the argument. */
  lemma {:induction false} SubstitutePortTwice(programArguments: seq<string>, p: nat, q: nat)
    requires SubstitutePort(programArguments, p).Success?
    ensures SubstitutePort(SubstitutePort(programArguments, p).value, q) == SubstitutePort(programArguments, q)
  {
    SubstitutePortKeepsFlag(programArguments, p);
    var k := IndexOf(programArguments, "-port").value;
    var r := SubstitutePort(programArguments, p).value;
    assert r[k + 1 := NatToString(q)] == programArguments[k + 1 := NatToString(q)];
  }

  // ---------------------------------------------------------------------
  // The debugger launch configuration

  /** The launch arguments the language server resolves for a test item. */
  datatype LaunchArguments = LaunchArguments(
    mainClass: string,
    projectName: string,
    workingDirectory: string,
    classpath: seq<string>,
    modulepath: seq<string>,
    vmArguments: seq<string>,
    programArguments: seq<string>)

  /** The debugger configuration `launch` starts. Its constant fields,
      type "java", request "launch" and no-debug false, are the same for every
      launch and are left implicit. */
  datatype DebugConfig = DebugConfig(
    name: string,
    projectName: string,
    cwd: string,
    classPaths: seq<string>,
    modulePaths: seq<string>,
    vmArgs: string,
    args: string,
    mainClass: string)

  /** The name of a test kind in a message. */
  function KindName(kind: TestKind): string {
    match kind
    case JUnit5 => "JUnit5"
    case JUnit => "JUnit"
    case TestNG => "TestNG"
    case NoKind => "None"
  }

  const TESTNG_LAUNCHER: string := "com.microsoft.java.test.runner.Launcher"

  /** `merge_classpaths`: the test-scope class path is merged into the
      launch arguments, appending only entries not present yet. */
  function MergeClasspaths(launchArgs: LaunchArguments, classpath: seq<string>): (r: LaunchArguments)
    ensures r.(classpath := launchArgs.classpath) == launchArgs
    ensures |launchArgs.classpath| <= |r.classpath| && r.classpath[..|launchArgs.classpath|] == launchArgs.classpath
    ensures forall x :: x in classpath ==> x in r.classpath
    ensures forall i :: |launchArgs.classpath| <= i < |r.classpath| ==>
      r.classpath[i] in classpath && r.classpath[i] !in launchArgs.classpath
    ensures NoDuplicates(r.classpath[|launchArgs.classpath|..])
    ensures forall i, j :: |launchArgs.classpath| <= i < j < |r.classpath| ==>
      IndexOf(classpath, r.classpath[i]).value < IndexOf(classpath, r.classpath[j]).value
  {
    AppendMissingFirstOrder(launchArgs.classpath, classpath);
    launchArgs.(classpath := AppendMissing(launchArgs.classpath, classpath))
  }

  /** Merging the same class path again changes nothing. */
  lemma {:induction false} MergeClasspathsTwice(launchArgs: LaunchArguments, classpath: seq<string>)
    ensures MergeClasspaths(MergeClasspaths(launchArgs, classpath), classpath) == MergeClasspaths(launchArgs, classpath)
  {
    AppendMissingIdempotent(launchArgs.classpath, classpath);
  }

  /** `launch`: JUnit items run the main class of the launch arguments with
      the port of the JUnit result server substituted; TestNG items run the
      TestNG launcher from `runnerJar` with the TestNG arguments; any other
      kind is refused. `junitPort` and `testNgPort` are the ports the two
      result servers listen on. */
  function Launch(item: TestItem, launchArgs: LaunchArguments, junitPort: nat, testNgPort: nat, runnerJar: string)
    : (r: Result<DebugConfig>)
    ensures r.Success? <==>
      item.testKind == TestNG ||
      ((item.testKind == JUnit || item.testKind == JUnit5) &&
        SubstitutePort(launchArgs.programArguments, junitPort).Success?)
    ensures r.Failure? && item.testKind == NoKind ==> r.error == "TestKind None not supported"
    ensures r.Success? ==>
      r.value.name == item.caption &&
      r.value.projectName == launchArgs.projectName &&
      r.value.cwd == launchArgs.workingDirectory &&
      r.value.modulePaths == launchArgs.modulepath &&
      r.value.vmArgs == Join(launchArgs.vmArguments, ' ')
    ensures r.Success? && item.testKind != TestNG ==>
      r.value.mainClass == launchArgs.mainClass &&
      r.value.classPaths == launchArgs.classpath &&
      r.value.args == Join(SubstitutePort(launchArgs.programArguments, junitPort).value, ' ')
    ensures r.Success? && item.testKind == TestNG ==>
      r.value.mainClass == TESTNG_LAUNCHER &&
      r.value.classPaths == launchArgs.classpath + [runnerJar] &&
      r.value.args == Join(TestNgArguments(testNgPort, item), ' ')
  {
    var base := DebugConfig(
      item.caption, launchArgs.projectName, launchArgs.workingDirectory,
      launchArgs.classpath, launchArgs.modulepath, Join(launchArgs.vmArguments, ' '), "", "");
    if item.testKind == TestNG then
      Success(base.(
        mainClass := TESTNG_LAUNCHER,
        classPaths := launchArgs.classpath + [runnerJar],
        args := Join(TestNgArguments(testNgPort, item), ' ')))
    else if item.testKind == NoKind then
      Failure("TestKind " + KindName(item.testKind) + " not supported")
    else
      assert item.testKind == JUnit || item.testKind == JUnit5;
      var programArguments :- SubstitutePort(launchArgs.programArguments, junitPort);
      Success(base.(args := Join(programArguments, ' '), mainClass := launchArgs.mainClass))
  }
}

=== FILE: test_protocol.dfy ===
/** The test items the test extension of the language server reports for a
    source file: a forest of classes and methods, each with the kind of test
    framework it belongs to and the level it sits at. */
module TestProtocol {

  import opened Wrappers

  /** The test framework of an item. */
  datatype TestKind = JUnit5 | JUnit | TestNG | NoKind

  /** How deep in the project structure an item sits. */
  datatype TestLevel = Root | Workspace | WorkspaceFolder | Project | Package | Class | Method

  datatype Position = Position(line: nat, character: nat)

  datatype Range = Range(start: Position, end: Position)

  /** One test item (`caption` is the item's `label`). An item without a
      `children` key has `children == []`: every operation treats the two
      alike. `range == None` is a `null` range; the server always sends the
      key. */
  datatype TestItem = TestItem(
    id: string,
    caption: string,
    fullName: string,
    jdtHandler: string,
    projectName: string,
    testKind: TestKind,
    testLevel: TestLevel,
    range: Option<Range>,
    children: seq<TestItem>)
}

=== FILE: utils.dfy ===
/** Helpers shared by the plugin's commands: flattening the test-item forest,
    dropping stack-trace lines that mention framework internals, and writing
    one setting into the nested project settings. */
module Utils {

  import opened Wrappers
  import opened Seqs
  import opened Strings
  import opened Json
  import opened TestProtocol

  // ---------------------------------------------------------------------
  // Flattening the test-item forest

  /** Every item of the forest, each immediately followed by the flattening
      of its own children, siblings in their original order. */
  function Flatten(items: seq<TestItem>): seq<TestItem>
    decreases items
  {
    if items == [] then []
    else [items[0]] + Flatten(items[0].children) + Flatten(items[1..])
  }

  /** The number of nodes of a forest. */
  function CountNodes(items: seq<TestItem>): nat
    decreases items
  {
    if items == [] then 0
    else 1 + CountNodes(items[0].children) + CountNodes(items[1..])
  }

  /** `x` is one of the nodes of the forest, at any depth. */
  ghost predicate InForest(x: TestItem, items: seq<TestItem>)
    decreases items
  {
    exists i :: 0 <= i < |items| && (items[i] == x || InForest(x, items[i].children))
  }

  lemma {:induction false} FlattenAppend(a: seq<TestItem>, b: seq<TestItem>)
    ensures Flatten(a + b) == Flatten(a) + Flatten(b)
    decreases |a|
  {
    if a == [] {
      assert a + b == b;
    } else {
      assert (a + b)[0] == a[0] && (a + b)[1..] == a[1..] + b;
      FlattenAppend(a[1..], b);
    }
  }

  /** Pre-order: each top-level item is listed right before the flattening
      of its children, after everything its earlier siblings contribute and
      before everything its later siblings contribute. */
  lemma {:induction false} FlattenPreOrder(items: seq<TestItem>, i: nat)
    requires i < |items|
    ensures Flatten(items) ==
      Flatten(items[..i]) + [items[i]] + Flatten(items[i].children) + Flatten(items[i + 1..])
  {
    SplitAround(items, i);
    FlattenAround(items[..i], items[i], items[i + 1..]);
  }

  lemma SplitAround<T>(s: seq<T>, i: nat)
    requires i < |s|
    ensures s == s[..i] + ([s[i]] + s[i + 1..])
  {
  }

  lemma {:induction false} FlattenAround(before: seq<TestItem>, x: TestItem, after: seq<TestItem>)
    ensures Flatten(before + ([x] + after)) == Flatten(before) + [x] + Flatten(x.children) + Flatten(after)
  {
    FlattenAppend(before, [x] + after);
    FlattenAppend([x], after);
    FlattenSingle(x);
    Regroup(Flatten(before + ([x] + after)), Flatten(before), Flatten([x] + after),
      Flatten([x]), Flatten(after), x, Flatten(x.children));
  }

  lemma Regroup<T>(a: seq<T>, b: seq<T>, c: seq<T>, d: seq<T>, e: seq<T>, x: T, f: seq<T>)
    requires a == b + c && c == d + e && d == [x] + f
    ensures a == b + [x] + f + e
  {
  }

  /** A single item contributes itself followed by its descendants. */
  lemma {:induction false} FlattenSingle(x: TestItem)
    ensures Flatten([x]) == [x] + Flatten(x.children)
  {
    assert [x][1..] == [];
  }

  lemma FlattenEmpty()
    ensures Flatten([]) == []
  {
  }

  /** An item without children contributes exactly itself. */
  lemma {:induction false} FlattenLeaf(x: TestItem)
    requires x.children == []
    ensures Flatten([x]) == [x]
  {
    assert [x][1..] == [];
  }

  /** The flattening lists as many items as the forest has nodes. */
  lemma {:induction false} FlattenLength(items: seq<TestItem>)
    ensures |Flatten(items)| == CountNodes(items)
    decreases items
  {
    if items != [] {
      FlattenLength(items[0].children);
      FlattenLength(items[1..]);
    }
  }

  /** The flattening lists exactly the nodes of the forest. */
  lemma {:induction false} FlattenMembers(items: seq<TestItem>, x: TestItem)
    ensures x in Flatten(items) <==> InForest(x, items)
    decreases items
  {
    if items != [] {
      var f := Flatten(items);
      FlattenMembers(items[0].children, x);
      FlattenMembers(items[1..], x);
      assert f == [items[0]] + Flatten(items[0].children) + Flatten(items[1..]);
      if InForest(x, items) {
        var i :| 0 <= i < |items| && (items[i] == x || InForest(x, items[i].children));
        if i > 0 {
          assert items[1..][i - 1] == items[i];
          assert InForest(x, items[1..]);
        }
      }
      if InForest(x, items[1..]) {
        var i :| 0 <= i < |items[1..]| && (items[1..][i] == x || InForest(x, items[1..][i].children));
        assert items[i + 1] == items[1..][i];
      }
    }
  }

  // ---------------------------------------------------------------------
  // Filtering lines

  /** The characters Python's `str.splitlines` breaks at. */
  predicate IsLineBreak(c: char) {
    || c == '\n' || c == '\r' || c == '\U{0B}' || c == '\U{0C}'
    || c == '\U{1C}' || c == '\U{1D}' || c == '\U{1E}'
    || c == '\U{85}' || c == '\U{2028}' || c == '\U{2029}'
  }

  predicate NoLineBreak(s: string) {
    forall i :: 0 <= i < |s| ==> !IsLineBreak(s[i])
  }

  /** No line break before the last character, except the '\r' of a final
      "\r\n". */
  predicate LineShape(l: string) {
    forall i :: 0 <= i < |l| - 1 ==>
      !IsLineBreak(l[i]) || (i == |l| - 2 && l[i] == '\r' && l[i + 1] == '\n')
  }

  lemma {:induction false} LineShapeCons(c: char, l: string)
    requires !IsLineBreak(c) && LineShape(l)
    ensures LineShape([c] + l)
  {
    var cl := [c] + l;
    forall i | 0 <= i < |cl| - 1
      ensures !IsLineBreak(cl[i]) || (i == |cl| - 2 && cl[i] == '\r' && cl[i + 1] == '\n')
    {
      if i > 0 {
        assert cl[i] == l[i - 1] && cl[i + 1] == l[i];
      }
    }
  }

  /** The length of the first line of `s`, its line ending included, where
      "\r\n" is one line ending. */
  function FirstLineLength(s: string): (n: nat)
    requires s != ""
    ensures 0 < n <= |s|
    ensures n < |s| ==> IsLineBreak(s[n - 1])
    ensures n < |s| && s[n - 1] == '\r' ==> s[n] != '\n'
    ensures LineShape(s[..n])
    decreases |s|
  {
    if IsLineBreak(s[0]) then (if s[0] == '\r' && |s| > 1 && s[1] == '\n' then 2 else 1)
    else if |s| == 1 then 1
    else
      var m := FirstLineLength(s[1..]);
      assert s[..1 + m] == [s[0]] + s[1..][..m];
      LineShapeCons(s[0], s[1..][..m]);
      1 + m
  }

  /** Python's `s.splitlines(True)`: the lines of `s` with their endings
      kept. Joined back they give `s`, and none is empty. */
  function SplitLines(s: string): (lines: seq<string>)
    ensures Concat(lines) == s
    ensures forall i :: 0 <= i < |lines| ==> lines[i] != ""
    decreases |s|
  {
    if s == "" then []
    else
      var n := FirstLineLength(s);
      var rest := SplitLines(s[n..]);
      assert ([s[..n]] + rest)[1..] == rest;
      assert s == s[..n] + s[n..];
      [s[..n]] + rest
  }

  /** Every line but the last ends in a line break. */
  lemma {:induction false} SplitLinesEndings(s: string)
    ensures forall i :: 0 <= i < |SplitLines(s)| - 1 ==> IsLineBreak(SplitLines(s)[i][|SplitLines(s)[i]| - 1])
    decreases |s|
  {
    if s != "" {
      var n := FirstLineLength(s);
      var rest := SplitLines(s[n..]);
      SplitLinesEndings(s[n..]);
      var lines := SplitLines(s);
      assert lines == [s[..n]] + rest;
      forall i | 0 <= i < |lines| - 1
        ensures IsLineBreak(lines[i][|lines[i]| - 1])
      {
        if i == 0 {
          assert rest != [];
          assert SplitLines("") == [];
          assert s[n..] != "";
          assert lines[0][n - 1] == s[n - 1];
        } else {
          assert lines[i] == rest[i - 1];
        }
      }
    }
  }

  /** No line holds a line break before its end, and a "\r\n" is never split
      between two lines. With `SplitLinesEndings` and the contract of
      `SplitLines` this pins the split to Python's. */
  lemma {:induction false} SplitLinesShape(s: string)
    ensures forall i :: 0 <= i < |SplitLines(s)| ==> LineShape(SplitLines(s)[i])
    ensures forall i :: 0 <= i < |SplitLines(s)| - 1 && SplitLines(s)[i][|SplitLines(s)[i]| - 1] == '\r' ==>
      SplitLines(s)[i + 1][0] != '\n'
    decreases |s|
  {
    if s != "" {
      var n := FirstLineLength(s);
      var rest := SplitLines(s[n..]);
      SplitLinesShape(s[n..]);
      var lines := SplitLines(s);
      assert lines == [s[..n]] + rest;
      forall i | 0 <= i < |lines|
        ensures LineShape(lines[i])
      {
        if i > 0 {
          assert lines[i] == rest[i - 1];
        }
      }
      forall i | 0 <= i < |lines| - 1 && lines[i][|lines[i]| - 1] == '\r'
        ensures lines[i + 1][0] != '\n'
      {
        if i == 0 {
          assert SplitLines("") == [];
          assert s[n..] != "";
          assert lines[0][n - 1] == s[n - 1];
          var m := FirstLineLength(s[n..]);
          assert rest[0] == s[n..][..m];
          assert lines[1][0] == s[n];
        } else {
          assert lines[i] == rest[i - 1] && lines[i + 1] == rest[i];
        }
      }
    }
  }

  /** The line contains none of the patterns. */
  predicate Clean(line: string, patterns: seq<string>) {
    forall i :: 0 <= i < |patterns| ==> !Contains(line, patterns[i])
  }

  function CleanLine(patterns: seq<string>): string -> bool {
    line => Clean(line, patterns)
  }

  /** `filter_lines`: the lines of `s` that contain none of the patterns,
      in order and with their line endings. */
  function FilterLines(s: string, patterns: seq<string>): string {
    Concat(Filter(CleanLine(patterns), SplitLines(s)))
  }

  /** The result is made of exactly the clean lines of the input, in their
      original order. */
  lemma {:induction false} FilterLinesSelects(s: string, patterns: seq<string>)
    ensures exists kept :: (
      && FilterLines(s, patterns) == Concat(kept)
      && IsSubsequence(kept, SplitLines(s))
      && (forall i :: 0 <= i < |kept| ==> Clean(kept[i], patterns))
      && (forall i :: 0 <= i < |SplitLines(s)| && Clean(SplitLines(s)[i], patterns) ==> SplitLines(s)[i] in kept)
      && (forall l :: Count(kept, l) == if Clean(l, patterns) then Count(SplitLines(s), l) else 0))
  {
    var kept := Filter(CleanLine(patterns), SplitLines(s));
    FilterIsSubsequence(CleanLine(patterns), SplitLines(s));
    FilterMembers(CleanLine(patterns), SplitLines(s));
    assert forall i :: 0 <= i < |kept| ==> CleanLine(patterns)(kept[i]);
    forall l
      ensures Count(kept, l) == if Clean(l, patterns) then Count(SplitLines(s), l) else 0
    {
      FilterCount(CleanLine(patterns), SplitLines(s), l);
    }
  }

  /** Without patterns every line is kept, so the input comes back unchanged. */
  lemma {:induction false} FilterLinesNoPatterns(s: string)
    ensures FilterLines(s, []) == s
  {
    FilterKeepsAll(CleanLine([]), SplitLines(s));
  }

  lemma {:induction false} ContainsInfix(a: string, m: string, b: string, p: string)
    requires Contains(m, p)
    ensures Contains(a + m + b, p)
  {
    var i :| 0 <= i <= |m| - |p| && OccursAt(p, m, i);
    assert (a + m + b)[|a| + i..|a| + i + |p|] == m[i..i + |p|];
    assert OccursAt(p, a + m + b, |a| + i);
  }

  /** A pattern occurring in one of the parts occurs in their
      concatenation. */
  lemma {:induction false} ContainsInConcat(parts: seq<string>, j: int, p: string)
    requires 0 <= j < |parts| && Contains(parts[j], p)
    ensures Contains(Concat(parts), p)
  {
    var before := parts[..j];
    var after := parts[j + 1..];
    assert parts == before + [parts[j]] + after;
    ConcatAppend(before + [parts[j]], after);
    ConcatAppend(before, [parts[j]]);
    assert [parts[j]][1..] == [];
    assert Concat([parts[j]]) == parts[j];
    ContainsInfix(Concat(before), parts[j], Concat(after), p);
  }

  /** A string in which no pattern occurs is its own filtering. */
  lemma {:induction false} FilterLinesClean(x: string, patterns: seq<string>)
    requires forall k :: 0 <= k < |patterns| ==> !Contains(x, patterns[k])
    ensures FilterLines(x, patterns) == x
  {
    var lines := SplitLines(x);
    forall j | 0 <= j < |lines|
      ensures CleanLine(patterns)(lines[j])
    {
      forall k | 0 <= k < |patterns|
        ensures !Contains(lines[j], patterns[k])
      {
        if Contains(lines[j], patterns[k]) {
          ContainsInConcat(lines, j, patterns[k]);
        }
      }
    }
    FilterKeepsAll(CleanLine(patterns), lines);
  }

  /** A pattern without line breaks cannot straddle the end of a line. */
  lemma {:induction false} OccurrenceWithinLine(a: string, b: string, p: string, i: int)
    requires a != "" && IsLineBreak(a[|a| - 1])
    requires NoLineBreak(p)
    ensures OccursAt(p, a + b, i) ==> OccursAt(p, a, i) || OccursAt(p, b, i - |a|)
  {
    if OccursAt(p, a + b, i) {
      OccurrenceSplits(a, b, p, i);
    }
  }

  lemma {:induction false} OccurrenceSplits(a: string, b: string, p: string, i: int)
    requires a != "" && IsLineBreak(a[|a| - 1])
    requires NoLineBreak(p)
    requires OccursAt(p, a + b, i)
    ensures OccursAt(p, a, i) || OccursAt(p, b, i - |a|)
  {
    var ab := a + b;
    assert forall j :: i <= j < i + |p| ==> ab[j] == p[j - i];
    assert ab[|a| - 1] == a[|a| - 1];
    assert !(i <= |a| - 1 < i + |p|);
    if i + |p| <= |a| {
      assert ab[i..i + |p|] == a[i..i + |p|];
    } else {
      assert ab[i..i + |p|] == b[i - |a|..i - |a| + |p|];
    }
  }

  lemma {:induction false} NoPatternInKept(lines: seq<string>, patterns: seq<string>, p: string)
    requires p in patterns && p != "" && NoLineBreak(p)
    requires forall i :: 0 <= i < |lines| ==> lines[i] != ""
    requires forall i :: 0 <= i < |lines| - 1 ==> IsLineBreak(lines[i][|lines[i]| - 1])
    ensures !Contains(Concat(Filter(CleanLine(patterns), lines)), p)
    decreases |lines|
  {
    if lines != [] {
      var f := CleanLine(patterns);
      var head := if f(lines[0]) then [lines[0]] else [];
      var rest := Concat(Filter(f, lines[1..]));
      assert Filter(f, lines) == head + Filter(f, lines[1..]);
      NoPatternInKept(lines[1..], patterns, p);
      ConcatAppend(head, Filter(f, lines[1..]));
      if f(lines[0]) {
        var x := lines[0] + rest;
        assert Concat(head) == lines[0];
        assert !Contains(lines[0], p);
        if lines[1..] == [] {
          assert rest == "" && x == lines[0];
        } else {
          forall i | 0 <= i <= |x| - |p|
            ensures !OccursAt(p, x, i)
          {
            OccurrenceWithinLine(lines[0], rest, p, i);
          }
        }
      } else {
        assert head == [];
        assert Concat(Filter(f, lines)) == Concat(Filter(f, lines[1..]));
      }
    }
  }

  /** No pattern without line breaks occurs anywhere in the filtered text. */
  lemma {:induction false} FilterLinesRemovesPatterns(s: string, patterns: seq<string>, p: string)
    requires p in patterns && p != "" && NoLineBreak(p)
    ensures !Contains(FilterLines(s, patterns), p)
  {
    SplitLinesEndings(s);
    NoPatternInKept(SplitLines(s), patterns, p);
  }

  /** Filtering twice with the same patterns is filtering once, provided no
      pattern contains a line break. */
  lemma {:induction false} FilterLinesIdempotent(s: string, patterns: seq<string>)
    requires forall k :: 0 <= k < |patterns| ==> NoLineBreak(patterns[k])
    ensures FilterLines(FilterLines(s, patterns), patterns) == FilterLines(s, patterns)
  {
    var r := FilterLines(s, patterns);
    if exists k :: 0 <= k < |patterns| && patterns[k] == "" {
      var k :| 0 <= k < |patterns| && patterns[k] == "";
      var lines := SplitLines(s);
      forall i | 0 <= i < |lines|
        ensures !CleanLine(patterns)(lines[i])
      {
        assert OccursAt(patterns[k], lines[i], 0);
      }
      FilterNone(CleanLine(patterns), lines);
      assert r == "";
    } else {
      forall k | 0 <= k < |patterns|
        ensures !Contains(r, patterns[k])
      {
        FilterLinesRemovesPatterns(s, patterns, patterns[k]);
      }
      FilterLinesClean(r, patterns);
    }
  }

  /** One unfolding of `SplitLines` at a known first-line length. */
  lemma SplitLinesStep(s: string, n: nat, rest: seq<string>)
    requires s != "" && FirstLineLength(s) == n && SplitLines(s[n..]) == rest
    ensures SplitLines(s) == [s[..n]] + rest
  {
  }

  lemma SplitLinesTail()
    ensures SplitLines("x\n\nc") == ["x\n", "\n", "c"]
  {
    var s3 := ['c'];
    assert s3[1..] == [] && s3[..1] == s3;
    SplitLinesStep(s3, 1, []);
    var s2 := ['\n'] + s3;
    assert s2[1..] == s3 && s2[..1] == ['\n'];
    SplitLinesStep(s2, 1, [s3]);
    var s1 := ['x', '\n'] + s2;
    assert s1[1..][0] == '\n' && FirstLineLength(s1) == 2;
    assert s1[2..] == s2 && s1[..2] == ['x', '\n'];
    SplitLinesStep(s1, 2, [['\n'], s3]);
    assert s1 == "x\n\nc";
  }

  lemma SplitLinesSample()
    ensures SplitLines("\rx\n\nc") == ["\r", "x\n", "\n", "c"]
  {
    var s1 := "x\n\nc";
    SplitLinesTail();
    var s0 := ['\r'] + s1;
    assert FirstLineLength(s0) == 1;
    assert s0[1..] == s1 && s0[..1] == ['\r'];
    SplitLinesStep(s0, 1, ["x\n", "\n", "c"]);
    assert s0 == "\rx\n\nc";
  }

  lemma SplitLinesRejoined()
    ensures SplitLines("\r\nc") == ["\r\n", "c"]
  {
    var s1 := ['c'];
    assert s1[1..] == [] && s1[..1] == s1;
    SplitLinesStep(s1, 1, []);
    var s0 := ['\r', '\n'] + s1;
    assert FirstLineLength(s0) == 2;
    assert s0[2..] == s1 && s0[..2] == ['\r', '\n'];
    SplitLinesStep(s0, 2, [s1]);
    assert s0 == "\r\nc";
  }

  lemma {:induction false} NotContainsHead(s: string, p: string)
    requires p != [] && p[0] !in s
    ensures !Contains(s, p)
  {
    forall i | 0 <= i <= |s| - |p|
      ensures !OccursAt(p, s, i)
    {
      assert s[i..i + |p|][0] == s[i];
    }
  }

  const SAMPLE_PATTERNS: seq<string> := ["x", "\r\n"]

  lemma SampleLinesKept()
    ensures Clean("\r", SAMPLE_PATTERNS) && Clean("\n", SAMPLE_PATTERNS) && Clean("c", SAMPLE_PATTERNS)
  {
    NotContainsHead("\r", "x");
    NotContainsHead("\n", "x");
    NotContainsHead("c", "x");
  }

  lemma SampleLinesDropped()
    ensures !Clean("x\n", SAMPLE_PATTERNS) && !Clean("\r\n", SAMPLE_PATTERNS)
  {
    assert "x\n"[0..1] == "x" && OccursAt(SAMPLE_PATTERNS[0], "x\n", 0);
    assert "\r\n"[0..2] == "\r\n" && OccursAt(SAMPLE_PATTERNS[1], "\r\n", 0);
  }

  lemma {:induction false} FilterDropsSecond<T>(f: T -> bool, a: T, b: T, c: T, d: T)
    requires f(a) && !f(b) && f(c) && f(d)
    ensures Filter(f, [a, b, c, d]) == [a, c, d]
  {
    FilterCons(f, d, []);
    assert [d] + [] == [d];
    FilterCons(f, c, [d]);
    assert [c] + [d] == [c, d];
    FilterCons(f, b, [c, d]);
    assert [b] + [c, d] == [b, c, d];
    FilterCons(f, a, [b, c, d]);
    assert [a] + [b, c, d] == [a, b, c, d];
  }

  lemma SampleFilterOnce()
    ensures Filter(CleanLine(SAMPLE_PATTERNS), ["\r", "x\n", "\n", "c"]) == ["\r", "\n", "c"]
  {
    SampleLinesKept();
    SampleLinesDropped();
    FilterDropsSecond(CleanLine(SAMPLE_PATTERNS), "\r", "x\n", "\n", "c");
  }

  lemma SampleFilterTwice()
    ensures Filter(CleanLine(SAMPLE_PATTERNS), ["\r\n", "c"]) == ["c"]
  {
    var f := CleanLine(SAMPLE_PATTERNS);
    SampleLinesKept();
    SampleLinesDropped();
    FilterCons(f, "c", []);
    FilterCons(f, "\r\n", ["c"]);
  }

  lemma SampleConcat()
    ensures Concat(["\r", "\n", "c"]) == "\r\nc" && Concat(["c"]) == "c"
  {
    var last := ["c"];
    assert last[1..] == [] && Concat(last) == "c";
    var two := ["\n"] + last;
    assert two[1..] == last && Concat(two) == "\nc";
    var kept := ["\r"] + two;
    assert kept[1..] == two && kept == ["\r", "\n", "c"];
  }

  lemma SampleFilterLinesOnce()
    ensures FilterLines("\rx\n\nc", SAMPLE_PATTERNS) == "\r\nc"
  {
    SplitLinesSample();
    SampleFilterOnce();
    SampleConcat();
  }

  lemma SampleFilterLinesTwice()
    ensures FilterLines("\r\nc", SAMPLE_PATTERNS) == "c"
  {
    SplitLinesRejoined();
    SampleFilterTwice();
    SampleConcat();
  }

  /** Why `FilterLinesIdempotent` excludes patterns with line breaks: a kept
      "\r" line followed by a kept "\n" line re-splits as one "\r\n" line,
      which a second pass then drops. */
  lemma FilterLinesTwiceDiffers()
    ensures FilterLines("\rx\n\nc", SAMPLE_PATTERNS) == "\r\nc"
    ensures FilterLines(FilterLines("\rx\n\nc", SAMPLE_PATTERNS), SAMPLE_PATTERNS) == "c"
  {
    SampleFilterLinesOnce();
    SampleFilterLinesTwice();
  }

  // ---------------------------------------------------------------------
  // Writing a project setting

  const SESSION_NAME: string := "jdtls"

  /** Where the plugin's settings live inside the project data. */
  const PROJECT_KEYS: seq<string> := ["settings", "LSP", SESSION_NAME, "settings"]

  /** Walks `path` through nested objects, creating an empty object for each
      missing key, and stores `value` under `setting` at the end. A value on
      the path that is not an object makes Python raise. */
  function SetAtPath(obj: map<string, Json>, path: seq<string>, setting: string, value: Json)
    : Result<map<string, Json>>
    decreases |path|
  {
    if path == [] then Success(obj[setting := value])
    else
      var key := path[0];
      if key in obj && !obj[key].JObj? then Failure("a value on the settings path is not a dictionary")
      else
        var sub := if key in obj then obj[key].fields else map[];
        match SetAtPath(sub, path[1..], setting, value)
        case Failure(e) => Failure(e)
        case Success(sub') => Success(obj[key := JObj(sub')])
  }

  /** Some level of `path` (below the root) holds a value that is not an
      object. */
  ghost predicate Blocked(obj: map<string, Json>, path: seq<string>) {
    exists k :: 1 <= k <= |path| && GetPath(JObj(obj), path[..k]).Some? && !GetPath(JObj(obj), path[..k]).value.JObj?
  }

  lemma {:induction false} GetPathStep(m: map<string, Json>, path: seq<string>, k: nat)
    requires 1 <= k <= |path|
    ensures GetPath(JObj(m), path[..k]) ==
      if path[0] in m then GetPath(m[path[0]], path[1..][..k - 1]) else None
  {
    assert path[..k][0] == path[0] && path[..k][1..] == path[1..][..k - 1];
  }

  /** An empty object has no keys anywhere. */
  lemma EmptyKeysAt(path: seq<string>)
    ensures KeysAt(JObj(map[]), path) == {}
  {
  }

  /** Below an object on the path, the rest of the path is blocked exactly
      when the whole path is. */
  lemma {:induction false} BlockedBelowObject(obj: map<string, Json>, path: seq<string>)
    requires path != [] && path[0] in obj && obj[path[0]].JObj?
    ensures Blocked(obj, path) <==> Blocked(obj[path[0]].fields, path[1..])
  {
    var sub := obj[path[0]].fields;
    forall k | 1 <= k <= |path|
      ensures GetPath(JObj(obj), path[..k]) == GetPath(JObj(sub), path[1..][..k - 1])
    {
      GetPathStep(obj, path, k);
    }
    if Blocked(obj, path) {
      var k :| 1 <= k <= |path| && GetPath(JObj(obj), path[..k]).Some? && !GetPath(JObj(obj), path[..k]).value.JObj?;
      assert k >= 2;
      assert 1 <= k - 1 <= |path[1..]|;
    }
    if Blocked(sub, path[1..]) {
      var k :| 1 <= k <= |path[1..]| && GetPath(JObj(sub), path[1..][..k]).Some? && !GetPath(JObj(sub), path[1..][..k]).value.JObj?;
      assert GetPath(JObj(obj), path[..k + 1]) == GetPath(JObj(sub), path[1..][..k]);
    }
  }

  /** A missing key blocks nothing: the path below it does not exist. */
  lemma {:induction false} BlockedBelowMissing(obj: map<string, Json>, path: seq<string>)
    requires path != [] && path[0] !in obj
    ensures !Blocked(obj, path) && !Blocked(map[], path[1..])
  {
    forall k | 1 <= k <= |path|
      ensures GetPath(JObj(obj), path[..k]) == None
    {
      assert path[..k][0] == path[0];
    }
    forall k | 1 <= k <= |path[1..]|
      ensures GetPath(JObj(map[]), path[1..][..k]) == None
    {
      assert path[1..][..k][0] == path[1];
    }
  }

  /** The walk fails exactly when a non-object stands on the path. */
  lemma {:induction false} SetAtPathFails(obj: map<string, Json>, path: seq<string>, setting: string, value: Json)
    ensures SetAtPath(obj, path, setting, value).Failure? <==> Blocked(obj, path)
    decreases |path|
  {
    if path != [] {
      var key := path[0];
      if key in obj && !obj[key].JObj? {
        assert path[..1] == [key];
        assert GetPath(JObj(obj), path[..1]) == Some(obj[key]);
      } else if key in obj {
        SetAtPathFails(obj[key].fields, path[1..], setting, value);
        BlockedBelowObject(obj, path);
      } else {
        SetAtPathFails(map[], path[1..], setting, value);
        BlockedBelowMissing(obj, path);
      }
    }
  }

  /** After a successful walk, the setting holds the value. */
  lemma {:induction false} SetAtPathStores(obj: map<string, Json>, path: seq<string>, setting: string, value: Json)
    requires SetAtPath(obj, path, setting, value).Success?
    ensures GetPath(JObj(SetAtPath(obj, path, setting, value).value), path + [setting]) == Some(value)
    decreases |path|
  {
    if path == [] {
      assert ([] + [setting])[1..] == [];
    } else {
      var sub := if path[0] in obj then obj[path[0]].fields else map[];
      SetAtPathStores(sub, path[1..], setting, value);
      assert (path + [setting])[0] == path[0] && (path + [setting])[1..] == path[1..] + [setting];
    }
  }

  /** A path that branches off the written one at position `d` reaches the
      same value before and after the walk: nothing else changes. */
  lemma {:induction false} SetAtPathPreserves(
    obj: map<string, Json>, path: seq<string>, setting: string, value: Json, q: seq<string>, d: nat)
    requires SetAtPath(obj, path, setting, value).Success?
    requires d < |q| && d <= |path| && q[..d] == (path + [setting])[..d] && q[d] != (path + [setting])[d]
    ensures GetPath(JObj(SetAtPath(obj, path, setting, value).value), q) == GetPath(JObj(obj), q)
    decreases |path|
  {
    var full := path + [setting];
    var r := SetAtPath(obj, path, setting, value).value;
    if d == 0 {
      assert q[0] != full[0];
    } else {
      var key := path[0];
      assert q[0] == q[..d][0] == full[..d][0] == key;
      var sub := if key in obj then obj[key].fields else map[];
      assert q[1..][..d - 1] == q[..d][1..] && full[1..] == path[1..] + [setting];
      assert (path[1..] + [setting])[..d - 1] == full[..d][1..];
      SetAtPathPreserves(sub, path[1..], setting, value, q[1..], d - 1);
      assert GetPath(JObj(r), q) == GetPath(JObj(SetAtPath(sub, path[1..], setting, value).value), q[1..]);
      if key !in obj {
        assert q[1..][0] == q[1];
      }
    }
  }

  /** The object at `path` in `after` holds the keys of the one in `before`
      (none if there was none) plus `next`. */
  ghost predicate LevelExtended(before: map<string, Json>, after: map<string, Json>, path: seq<string>, next: string) {
    && GetPath(JObj(after), path).Some?
    && GetPath(JObj(after), path).value.JObj?
    && KeysAt(JObj(after), path) == KeysAt(JObj(before), path) + {next}
  }

  /** Writing `sub'` under `key` lifts a level one step down to the same
      level one step up. */
  lemma {:induction false} LevelExtendedStep(
    obj: map<string, Json>, key: string, sub: map<string, Json>, sub': map<string, Json>, path: seq<string>, next: string)
    requires key in obj ==> obj[key].JObj? && sub == obj[key].fields
    requires key !in obj ==> sub == map[]
    requires LevelExtended(sub, sub', path, next)
    ensures LevelExtended(obj, obj[key := JObj(sub')], [key] + path, next)
  {
    assert ([key] + path)[0] == key && ([key] + path)[1..] == path;
    if key !in obj {
      EmptyKeysAt(path);
    }
  }

  /** At the root, a successful walk adds the first key of the path (the
      setting itself when the path is empty). */
  lemma {:induction false} SetAtPathTop(obj: map<string, Json>, path: seq<string>, setting: string, value: Json)
    requires SetAtPath(obj, path, setting, value).Success?
    ensures LevelExtended(obj, SetAtPath(obj, path, setting, value).value, [], (path + [setting])[0])
  {
    var r := SetAtPath(obj, path, setting, value).value;
    if path == [] {
      assert r == obj[setting := value];
    } else {
      assert r.Keys == obj.Keys + {path[0]};
    }
  }

  /** After a successful walk every level of the path is an object whose keys
      are the ones it had before plus the next key of the path; a level that
      was missing therefore holds just that key. */
  lemma {:induction false} SetAtPathLevels(
    obj: map<string, Json>, path: seq<string>, setting: string, value: Json, k: nat)
    requires SetAtPath(obj, path, setting, value).Success?
    requires k <= |path|
    ensures GetPath(JObj(SetAtPath(obj, path, setting, value).value), path[..k]).Some?
    ensures GetPath(JObj(SetAtPath(obj, path, setting, value).value), path[..k]).value.JObj?
    ensures KeysAt(JObj(SetAtPath(obj, path, setting, value).value), path[..k])
      == KeysAt(JObj(obj), path[..k]) + {(path + [setting])[k]}
    decreases |path|
  {
    var r := SetAtPath(obj, path, setting, value).value;
    if k == 0 {
      SetAtPathTop(obj, path, setting, value);
      assert path[..0] == [];
    } else {
      var key := path[0];
      var sub := if key in obj then obj[key].fields else map[];
      var sub' := SetAtPath(sub, path[1..], setting, value).value;
      assert r == obj[key := JObj(sub')];
      SetAtPathLevels(sub, path[1..], setting, value, k - 1);
      var next := (path + [setting])[k];
      assert next == (path[1..] + [setting])[k - 1];
      assert LevelExtended(sub, sub', path[1..][..k - 1], next);
      LevelExtendedStep(obj, key, sub, sub', path[1..][..k - 1], next);
      assert path[..k] == [key] + path[1..][..k - 1];
      assert LevelExtended(obj, r, path[..k], next);
    }
  }

  /** `set_lsp_project_setting`: stores `value` under `setting` in the
      plugin's project settings, starting from empty project data when the
      window has none. */
  function SetLspProjectSetting(projectData: Option<map<string, Json>>, setting: string, value: Json)
    : (r: Result<map<string, Json>>)
    ensures r.Failure? <==> Blocked(projectData.GetOr(map[]), PROJECT_KEYS)
    ensures r.Success? ==> GetPath(JObj(r.value), PROJECT_KEYS + [setting]) == Some(value)
  {
    var data := projectData.GetOr(map[]);
    var r := SetAtPath(data, PROJECT_KEYS, setting, value);
    SetAtPathFails(data, PROJECT_KEYS, setting, value);
    if r.Success? then SetAtPathStores(data, PROJECT_KEYS, setting, value); r else r
  }
}

=== FILE: workspace_execute_client_command_handler.dfy ===
/** The requests the language server sends through
    `workspace/executeClientCommand`: reloading bundles, and the test
    runner's questions to the user (pick from a list, type a text). Each is
    answered with one response, built from what the dialog resolved with. */
module ClientCommands {

  import opened Wrappers
  import opened Json
  import opened Seqs
  import opened QuickInputPanel
  import Jdtls

  const RELOAD_BUNDLES: string := "_java.reloadBundles.command"
  const ASK_CLIENT_FOR_CHOICE: string := "_java.test.askClientForChoice"
  const ASK_CLIENT_FOR_INPUT: string := "_java.test.askClientForInput"

  const CLIENT_COMMAND_REQUESTS: set<string> := {RELOAD_BUNDLES, ASK_CLIENT_FOR_CHOICE, ASK_CLIENT_FOR_INPUT}

  /** A request with its arguments spread over the handler's parameters. */
  datatype ClientRequest =
    | ReloadBundles
    | AskForChoice(placeholder: Json, items: Json, multiSelect: Json)
    | AskForInput(caption: Json, initialText: Json)

  /** `workspace_executeClientCommand`: a request without "arguments"
      raises on reading them, whatever its command. Otherwise an unknown
      command gets no handler and so no response (`None`); a known one is
      given the arguments, and raises when their number does not match its
      parameters: none for the bundle reload, three for a choice, two for an
      input. */
  function Dispatch(command: string, arguments: Option<seq<Json>>): (r: Result<Option<ClientRequest>>)
    ensures arguments.None? ==> r.Failure?
    ensures arguments.Some? && command !in CLIENT_COMMAND_REQUESTS ==> r == Success(None)
    ensures command == RELOAD_BUNDLES ==>
      (r.Success? <==> arguments == Some([])) && (r.Success? ==> r.value == Some(ReloadBundles))
    ensures command == ASK_CLIENT_FOR_CHOICE ==>
      (r.Success? <==> arguments.Some? && |arguments.value| == 3) &&
      (r.Success? ==> r.value == Some(AskForChoice(arguments.value[0], arguments.value[1], arguments.value[2])))
    ensures command == ASK_CLIENT_FOR_INPUT ==>
      (r.Success? <==> arguments.Some? && |arguments.value| == 2) &&
      (r.Success? ==> r.value == Some(AskForInput(arguments.value[0], arguments.value[1])))
  {
    if arguments.None? then Failure("KeyError: 'arguments'")
    else
      var args := arguments.value;
      if command == RELOAD_BUNDLES then
        if args == [] then Success(Some(ReloadBundles)) else Failure("TypeError: _reload_bundles takes no arguments")
      else if command == ASK_CLIENT_FOR_CHOICE then
        if |args| == 3 then Success(Some(AskForChoice(args[0], args[1], args[2])))
        else Failure("TypeError: _ask_client_for_choice takes three arguments")
      else if command == ASK_CLIENT_FOR_INPUT then
        if |args| == 2 then Success(Some(AskForInput(args[0], args[1])))
        else Failure("TypeError: _ask_client_for_input takes two arguments")
      else Success(None)
  }

  /** `_reload_bundles`: every bundle is loaded from the start, so the
      answer is an empty list. */
  function ReloadBundlesResponse(): (response: Json)
    ensures response.JArr? && response.elems == []
  {
    JArr([])
  }

  /** The answer lists, as strings, exactly the bundled jars that the
      started server is missing, and there are none: `Jdtls.InsertBundles`
      put every one of them in its bundle list. */
  lemma {:induction false} ReloadBundlesAnswersMissing(bundles: Option<seq<string>>, jarPaths: seq<string>)
    ensures var loaded := Jdtls.InsertBundles(bundles, jarPaths);
      ReloadBundlesResponse() == JArr(Map((p: string) => JStr(p), Filter((p: string) => p !in loaded, jarPaths)))
  {
    var loaded := Jdtls.InsertBundles(bundles, jarPaths);
    FilterNone((p: string) => p !in loaded, jarPaths);
  }

  // ---------------------------------------------------------------------
  // Asking for a choice

  /** An option the test runner offers: `caption` is its `label`, always
      there; the other fields may be absent. */
  datatype ChoiceItem = ChoiceItem(
    caption: string, value: Option<Json>, detail: Option<string>, description: Option<string>, picked: Option<Json>)

  /** `item.get("picked", False)`, read for its truth value. */
  predicate Picked(item: ChoiceItem) {
    item.picked.Some? && Truthy(item.picked.value)
  }

  /** The preselected row: the last picked item, or the first row when none
      is picked. */
  function PreselectIndex(items: seq<ChoiceItem>): (r: nat)
    ensures |items| == 0 ==> r == 0
    ensures |items| > 0 ==> r < |items|
    ensures (exists i :: 0 <= i < |items| && Picked(items[i])) ==>
      Picked(items[r]) && forall j :: r < j < |items| ==> !Picked(items[j])
    ensures (forall i :: 0 <= i < |items| ==> !Picked(items[i])) ==> r == 0
    decreases |items|
  {
    if |items| == 0 then 0
    else if Picked(items[|items| - 1]) then |items| - 1
    else
      var r := PreselectIndex(items[..|items| - 1]);
      assert forall i :: 0 <= i < |items| - 1 ==> items[..|items| - 1][i] == items[i];
      r
  }

  /** The loop of `_ask_client_for_choice` that finds the preselected row:
      it remembers the index of every picked item it passes. */
  method FindPreselectIndex(items: seq<ChoiceItem>) returns (index: nat)
    ensures index == PreselectIndex(items)
  {
    index := 0;
    var i := 0;
    while i < |items|
      invariant 0 <= i <= |items|
      invariant index == PreselectIndex(items[..i])
    {
      assert items[..i + 1][..i] == items[..i];
      if Picked(items[i]) {
        index := i;
      }
      i := i + 1;
    }
    assert items[..|items|] == items;
  }

  /** `qs_items`: the label as caption, the value (nothing when absent), the
      detail as details and the description as annotation, the latter two
      empty when absent. */
  function QsItems(items: seq<ChoiceItem>): (r: seq<SelectableItem<Json>>)
    ensures |r| == |items|
    ensures forall i :: 0 <= i < |items| ==>
      r[i].caption == items[i].caption && r[i].value == items[i].value.GetOr(JNull) &&
      r[i].details == items[i].detail.GetOr("") && r[i].annotation == items[i].description.GetOr("") &&
      r[i].kind == KIND_AMBIGUOUS
  {
    seq(|items|, i requires 0 <= i < |items| =>
      SelectableItem(items[i].caption, items[i].value.GetOr(JNull), items[i].detail.GetOr(""),
                     items[i].description.GetOr(""), KIND_AMBIGUOUS))
  }

  /** The dialog `_ask_client_for_choice` opens. */
  function ChoiceDialog(placeholder: string, items: seq<ChoiceItem>, multiSelect: bool): (p: ListPanel<Json>)
    ensures Valid(p) && !p.finished && p.stack == [] && |p.items| == |items|
    ensures p.preselectIndex == PreselectIndex(items) && p.multiSelect == multiSelect
    ensures p.items == QsItems(items) && p.placeholder == placeholder
  {
    NewListPanel(QsItems(items), PreselectIndex(items), placeholder, multiSelect)
  }

  /** `x.value or x.label`: the value when it is truthy, the label
      otherwise. */
  function ValueOrLabel(item: SelectableItem<Json>): (r: Json)
    ensures Truthy(item.value) ==> r == item.value
    ensures !Truthy(item.value) ==> r == JStr(item.caption)
  {
    if Truthy(item.value) then item.value else JStr(item.caption)
  }

  /** `on_selection_done`: no selection, or an empty one, is answered with
      `null`; a multi-select dialog with the list of the chosen items'
      values or labels; a single-select one with the first chosen item's. */
  function ChoiceResponse(selection: Option<seq<SelectableItem<Json>>>, multiSelect: bool): (r: Json)
    ensures selection.None? || selection.value == [] ==> r == JNull
    ensures selection.Some? && selection.value != [] && multiSelect ==>
      r.JArr? && |r.elems| == |selection.value| &&
      forall k :: 0 <= k < |r.elems| ==> r.elems[k] == ValueOrLabel(selection.value[k])
    ensures selection.Some? && selection.value != [] && !multiSelect ==>
      r == ValueOrLabel(selection.value[0])
  {
    if selection.None? || selection.value == [] then JNull
    else if multiSelect then JArr(Map(ValueOrLabel, selection.value))
    else ValueOrLabel(selection.value[0])
  }

  /** The answer for an item the user picked: its value if that is truthy,
      otherwise its label. */
  function Answer(item: ChoiceItem): Json {
    if item.value.Some? && Truthy(item.value.value) then item.value.value else JStr(item.caption)
  }

  /** Choosing row `v` of a single-select dialog answers with that item's
      value or label. */
  lemma {:induction false} SingleChoiceAnswer(placeholder: string, items: seq<ChoiceItem>, v: int)
    requires 0 <= v < |items|
    ensures var p := ChoiceDialog(placeholder, items, false);
      Confirm(p, v).1.Resolved? &&
      ChoiceResponse(Confirm(p, v).1.selection, false) == Answer(items[v])
  {
    var p := ChoiceDialog(placeholder, items, false);
    SingleSelectResolves(p, v);
  }

  /** Cancelling the dialog before choosing anything answers `null`. */
  lemma CancelledChoiceAnswer(placeholder: string, items: seq<ChoiceItem>, multiSelect: bool)
    ensures var p := ChoiceDialog(placeholder, items, multiSelect);
      Cancel(p).1 == Resolved(None) && ChoiceResponse(Cancel(p).1.selection, multiSelect) == JNull
  {
  }

  /** The answers for the items at `vs`, in that order. */
  function Answers(items: seq<ChoiceItem>, vs: seq<int>): (r: seq<Json>)
    requires forall k :: 0 <= k < |vs| ==> 0 <= vs[k] < |items|
    ensures |r| == |vs|
  {
    seq(|vs|, k requires 0 <= k < |vs| => Answer(items[vs[k]]))
  }

  /** Answering a multi-select dialog whose chosen rows are `vs`. */
  lemma {:induction false} SelectionAnswers(items: seq<ChoiceItem>, vs: seq<int>)
    requires vs != [] && forall k :: 0 <= k < |vs| ==> 0 <= vs[k] < |items|
    ensures ChoiceResponse(Some(Selection(QsItems(items), vs)), true) == JArr(Answers(items, vs))
  {
    var sel := Selection(QsItems(items), vs);
    var r := ChoiceResponse(Some(sel), true);
    forall k | 0 <= k < |vs|
      ensures r.elems[k] == Answers(items, vs)[k]
    {
      assert sel[k] == QsItems(items)[vs[k]];
    }
  }

  /** Choosing the rows `vs` of a multi-select dialog and then "Confirm"
      answers with the list of their values or labels, in the order chosen;
      "Confirm" alone answers `null`. */
  lemma {:induction false} MultiChoiceAnswer(placeholder: string, items: seq<ChoiceItem>, vs: seq<int>)
    requires forall k :: 0 <= k < |vs| ==> 0 <= vs[k] < |items|
    ensures var q := ConfirmAll(ChoiceDialog(placeholder, items, true), vs);
      var res := Confirm(q, CONFIRM_VALUE).1;
      res.Resolved? &&
      ChoiceResponse(res.selection, true) == if vs == [] then JNull else JArr(Answers(items, vs))
  {
    var p := ChoiceDialog(placeholder, items, true);
    MultiSelectKeepsOrder(p, vs);
    assert p.stack + vs == vs;
    if vs != [] {
      SelectionAnswers(items, vs);
    }
  }

  // ---------------------------------------------------------------------
  // Asking for a text

  /** The dialog `_ask_client_for_input` opens. */
  function InputDialog(caption: string, initialText: string): (t: TextPanel)
    ensures t.placeholder == caption && t.initialText == initialText
    ensures t.validate.None? && t.preview.None?
  {
    TextPanel(caption, initialText, None, None)
  }

  /** `on_done`: the typed text is forwarded as it is; a cancelled dialog
      answers `null`. */
  function InputResponse(answer: TextAnswer): (r: Json)
    ensures answer.TextConfirmed? ==> r == JStr(answer.text)
    ensures answer.TextCancelled? ==> r == JNull
  {
    match ResolveText(answer)
    case Some(text) => JStr(text)
    case None => JNull
  }

  /** The input dialog accepts any text, so whatever the user confirms is
      what the server receives. */
  lemma InputForwarded(caption: string, initialText: string, text: string)
    ensures ValidateText(InputDialog(caption, initialText), text)
    ensures PreviewText(InputDialog(caption, initialText), text) == ""
    ensures InputResponse(TextConfirmed(text)) == JStr(text)
  {
  }
}

=== FILE: workspace_execute_command_handler.dfy ===
/** The commands the language server asks the client to run through
    `workspace/executeCommand`, which the plugin handles itself instead of
    forwarding: switching null analysis, applying a workspace edit, showing
    references, and acknowledging a completion item. */
module WorkspaceCommands {

  import opened Wrappers
  import opened Json
  import opened Utils

  /** An `ExecuteCommandParams`: the command and, when present, its
      arguments. */
  datatype ExecuteCommandParams = ExecuteCommandParams(command: string, arguments: Option<seq<Json>>)

  const SET_NULL_ANALYSIS_MODE: string := "java.compile.nullAnalysis.setMode"
  const APPLY_WORKSPACE_EDIT: string := "java.apply.workspaceEdit"
  const SHOW_REFERENCES: string := "java.show.references"
  const COMPLETION_ON_DID_SELECT: string := "java.completion.onDidSelect"

  /** The keys of the handler table. */
  const CLIENT_COMMANDS: set<string> :=
    {SET_NULL_ANALYSIS_MODE, APPLY_WORKSPACE_EDIT, SHOW_REFERENCES, COMPLETION_ON_DID_SELECT}

  /** What a handler sets in motion. */
  datatype ClientAction =
    | SetNullAnalysisMode(mode: string, projectData: map<string, Json>)
    | ApplyWorkspaceEdit(changes: Json)
    | ShowReferences(locations: seq<Json>)
    | AcknowledgeSelection

  /** When the handler calls `done`, which it does exactly once: right away,
      on the next tick, once the edit is applied, or right after the
      reference panel has opened (whatever the user then picks). */
  datatype DoneCall = DoneNow | DoneOnNextTick | DoneAfterEdit | DoneAfterPanelShown

  datatype Handled = Handled(action: ClientAction, done: DoneCall)

  /** `FeatureStatus.automatic`. */
  const AUTOMATIC_STATUS: Json := JNum(2)

  /** `_set_null_analysis_mode`: "automatic" for the automatic status and
      "disabled" for anything else (disabled and interactive alike). */
  function NullAnalysisMode(status: Json): (mode: string)
    ensures mode == "automatic" <==> status == AUTOMATIC_STATUS
    ensures mode == "disabled" <==> status != AUTOMATIC_STATUS
  {
    if status == AUTOMATIC_STATUS then "automatic" else "disabled"
  }

  /** The project data after the null-analysis mode is written under the
      plugin's project settings, as `set_lsp_project_setting` does it. */
  function NullAnalysisProjectData(projectData: Option<map<string, Json>>, setting: string, status: Json)
    : (r: Result<map<string, Json>>)
    ensures r.Failure? <==> Blocked(projectData.GetOr(map[]), PROJECT_KEYS)
    ensures r.Success? ==>
      GetPath(JObj(r.value), PROJECT_KEYS + [setting]) == Some(JStr(NullAnalysisMode(status)))
  {
    SetLspProjectSetting(projectData, setting, JStr(NullAnalysisMode(status)))
  }

  /** What `for r in refs` goes through: the elements of a list, nothing
      for an empty string or object. A non-empty string or object yields
      strings, which the conversion of a location cannot read, and any
      other value is not iterable. */
  function ReferenceList(refs: Json): (r: Result<seq<Json>>)
    ensures r.Success? <==> refs.JArr? || refs == JStr("") || refs == JObj(map[])
    ensures r.Success? && refs.JArr? ==> r.value == refs.elems
    ensures r.Success? && !refs.JArr? ==> r.value == []
  {
    match refs
    case JArr(elems) => Success(elems)
    case JStr(s) => if s == "" then Success([]) else Failure("TypeError: string indices must be integers")
    case JObj(m) => if m == map[] then Success([]) else Failure("TypeError: string indices must be integers")
    case _ => Failure("TypeError: object is not iterable")
  }

  /** `handle_client_command`: `None` (the Python `False`) for a command
      outside the table; otherwise the handler the table names, applied to
      the arguments. A handler given arguments it cannot take raises: the
      null-analysis handler takes exactly one and raises when the project
      data blocks the write, the edit handler reads the first argument, the
      reference handler iterates the third. `projectData` is the window's
      project data and `nullAnalysisSetting` the name of the null-analysis
      setting. */
  function HandleClientCommand(
    command: string, arguments: seq<Json>, projectData: Option<map<string, Json>>, nullAnalysisSetting: string)
    : (r: Result<Option<Handled>>)
    ensures command !in CLIENT_COMMANDS ==> r == Success(None)
    ensures command in CLIENT_COMMANDS ==> r != Success(None)
    ensures command == SET_NULL_ANALYSIS_MODE ==>
      (r.Success? <==> |arguments| == 1 && !Blocked(projectData.GetOr(map[]), PROJECT_KEYS))
    ensures command == SET_NULL_ANALYSIS_MODE && r.Success? ==>
      r.value.Some? && r.value.value.done == DoneOnNextTick &&
      r.value.value.action.SetNullAnalysisMode? &&
      r.value.value.action.mode == NullAnalysisMode(arguments[0]) &&
      GetPath(JObj(r.value.value.action.projectData), PROJECT_KEYS + [nullAnalysisSetting]) ==
        Some(JStr(NullAnalysisMode(arguments[0])))
    ensures command == APPLY_WORKSPACE_EDIT ==>
      (r.Success? <==> |arguments| >= 1) &&
      (r.Success? ==> r.value == Some(Handled(ApplyWorkspaceEdit(arguments[0]), DoneAfterEdit)))
    ensures command == SHOW_REFERENCES ==>
      (r.Success? <==> |arguments| >= 3 && ReferenceList(arguments[2]).Success?) &&
      (r.Success? ==> r.value == Some(Handled(ShowReferences(ReferenceList(arguments[2]).value), DoneAfterPanelShown)))
    ensures command == COMPLETION_ON_DID_SELECT ==> r == Success(Some(Handled(AcknowledgeSelection, DoneNow)))
  {
    if command == SET_NULL_ANALYSIS_MODE then
      if |arguments| == 1 then
        var data :- NullAnalysisProjectData(projectData, nullAnalysisSetting, arguments[0]);
        Success(Some(Handled(SetNullAnalysisMode(NullAnalysisMode(arguments[0]), data), DoneOnNextTick)))
      else Failure("TypeError: _set_null_analysis_mode takes exactly one argument")
    else if command == APPLY_WORKSPACE_EDIT then
      if |arguments| >= 1 then Success(Some(Handled(ApplyWorkspaceEdit(arguments[0]), DoneAfterEdit)))
      else Failure("IndexError: tuple index out of range")
    else if command == SHOW_REFERENCES then
      if |arguments| < 3 then Failure("IndexError: tuple index out of range")
      else
        var refs :- ReferenceList(arguments[2]);
        Success(Some(Handled(ShowReferences(refs), DoneAfterPanelShown)))
    else if command == COMPLETION_ON_DID_SELECT then
      Success(Some(Handled(AcknowledgeSelection, DoneNow)))
    else Success(None)
  }

  /** The command is handled (the Python `True`) exactly when it is in the
      table and its handler accepts the arguments. */
  lemma HandledIffKnown(
    command: string, arguments: seq<Json>, projectData: Option<map<string, Json>>, nullAnalysisSetting: string)
    requires HandleClientCommand(command, arguments, projectData, nullAnalysisSetting).Success?
    ensures HandleClientCommand(command, arguments, projectData, nullAnalysisSetting).value.Some? <==>
      command in CLIENT_COMMANDS
  {
  }

  /** An empty list, an empty string and an empty object all open an empty
      reference panel, and the command counts as handled. */
  lemma EmptyReferencesShowEmptyPanel(
    first: Json, second: Json, refs: Json, projectData: Option<map<string, Json>>, nullAnalysisSetting: string)
    requires refs == JArr([]) || refs == JStr("") || refs == JObj(map[])
    ensures HandleClientCommand(SHOW_REFERENCES, [first, second, refs], projectData, nullAnalysisSetting) ==
      Success(Some(Handled(ShowReferences([]), DoneAfterPanelShown)))
  {
  }

  // ---------------------------------------------------------------------
  // Opening a reference

  /** How a reference is opened: always at its encoded position, and as a
      transient preview when it is only highlighted. */
  datatype OpenFlags = OpenFlags(encodedPosition: bool, transient: bool)

  /** `_open_ref_index`: the panel reports -1 when it is closed without a
      choice, and nothing opens; otherwise the chosen reference opens. */
  function OpenReference(refs: seq<string>, index: int, transient: bool): (r: Option<(string, OpenFlags)>)
    requires -1 <= index < |refs|
    ensures r.None? <==> index == -1
    ensures r.Some? ==> r.value.0 == refs[index] && r.value.1.encodedPosition && r.value.1.transient == transient
  {
    if index != -1 then Some((refs[index], OpenFlags(true, transient))) else None
  }

  /** Choosing a reference opens it for good; highlighting one previews it. */
  lemma ChoiceAndHighlight(refs: seq<string>, index: int)
    requires 0 <= index < |refs|
    ensures OpenReference(refs, index, false).value.1 == OpenFlags(true, false)
    ensures OpenReference(refs, index, true).value.1 == OpenFlags(true, true)
    ensures OpenReference(refs, index, false).value.0 == OpenReference(refs, index, true).value.0
  {
  }
}

=== FILE: wrappers.dfy ===
/** Optional values and results that either succeed or carry the message of
    the exception the Python code would raise. */
module Wrappers {

  datatype Option<+T> = None | Some(value: T) {

    /** The value, or `default` when there is none (Python's `x or default`
        for values that are either present or `None`). */
    function GetOr(default: T): T {
      match this
      case Some(v) => v
      case None => default
    }
  }

  datatype Result<+T> = Success(value: T) | Failure(error: string) {

    predicate IsFailure() {
      Failure?
    }

    function PropagateFailure<U>(): Result<U>
      requires Failure?
    {
      Failure(error)
    }

    function Extract(): T
      requires Success?
    {
      value
    }
  }
}
